=== FILE: README.md ===
# xpra network protocol core, modelled in Dafny

This project models two sequential pieces of xpra's network layer and
proves properties about them.

- **WebSocket frame reassembly** (`WebSocketProtocol`). `parse_ws_frame`
  takes the bytes of each read. It keeps bytes that do not yet hold a whole
  frame for the next read. It reassembles fragmented text and binary
  messages (section 5.4 of RFC 6455). It answers pings with pongs and turns
  close frames into a lost connection (sections 5.5.1 to 5.5.3 of RFC 6455).
  `make_wsframe_header` builds the header of an outgoing frame and masks its
  payload items (section 5.3 of RFC 6455).
- **RFB post-authentication dispatch** (`RFBServer`). This covers how the
  single exported desktop is selected and the fixed pixel format advertised
  for it (section 7.4 of RFC 6143). It covers how a parsed client message is
  routed by its type name to a handler. It also covers what the handlers do:
  PointerEvent button diffing, KeyEvent key-name resolution,
  FramebufferUpdateRequest routing, authentication, and the
  authenticator-count check made when a connection is handled.

Modules:

| file | module | contents |
|---|---|---|
| `optional.dfy` | `Optional` | `Option` |
| `bytes.dfy` | `Bytes` | bytes as `bv8`, joining chunks, big-endian 16-bit values |
| `ws_frame.dfy` | `WsFrame` | frames, the header codec's contract, masking, `make_wsframe_header` |
| `ws_protocol.dfy` | `WsProtocol` | the `parse_ws_frame` state machine, close and ping handling |
| `rfb_types.dfy` | `RfbTypes` | window table entries, parsed packets, handler actions |
| `rfb_desktop.dfy` | `RfbDesktop` | desktop selection and the pixel format |
| `rfb_input.dfy` | `RfbInput` | button-mask diffing and key-name resolution |
| `rfb_server.dfy` | `RfbServer` | session state, the handlers, dispatch by name, connection handling |

Every handler is a pure function. It takes the state and its input and
returns the new state and the ordered list of actions it takes. Actions
include a payload handed upward, a frame written back, a lost connection, a
pointer move and a button action. An exception the source would raise
becomes an outcome that carries an error message. Code outside the core is
passed in as function values, and ghost predicates state what is assumed of
them:

- the header encoder `encode_hybi_header` and decoder `decode_hybi`;
- the keyboard configuration's `get_keycode` and `is_modifier`;
- the X11 `keysym_str`;
- the sharing policy.

Three behaviours of the code are worth knowing; the model keeps them:

- A non-UTF-8 close reason does not degrade gracefully. See Findings.
- PointerEvent stores the new button mask only when it differs from the
  stored one. The result is the same as storing it every time.
- When there is no single desktop, the RFB connection is closed without
  giving a cause.

## Model

| member | source | states |
|---|---|---|
| `Bytes.JoinContents` | xpra/net/websockets/protocol.py:103 | joining the fragment chunks keeps every byte of every chunk, in arrival order, at the offset given by the chunks before it |
| `WsFrame.MaskInvolution` | xpra/net/websockets/protocol.py:65-70 | masking with the same key twice gives back the data, so the receiver can unmask |
| `WsFrame.MaskSplit` | xpra/net/websockets/protocol.py:69-70 | masking two pieces separately equals masking them together when the second continues at the key position where the first ended |
| `WsFrame.PongRoundTrip` | xpra/net/websockets/protocol.py:134-139 | under the codec's round-trip contract, a pong reply decodes as one final pong frame with the ping's payload that consumes the whole reply |
| `WsFrame.MakeFrameHeaderAsWritten` | xpra/net/websockets/protocol.py:60-72 | the header is the encoder's binary-frame header for the summed item lengths and the mask flag, followed by the key when masking; with masking every item is masked on its own from the first key byte, without it the items are passed as they are; the item count and total length are kept |
| `WsFrame.MaskEachItem` | xpra/net/websockets/protocol.py:69-70 | the code as written masks each item on its own from the first key byte: item i of the result is item i masked with the key |
| `WsFrame.MaskItems` | xpra/net/websockets/protocol.py:69-70 | corrected masking: the masked items, joined, are the joined payload masked as one frame payload |
| `WsFrame.MakeFrameHeader` | xpra/net/websockets/protocol.py:60-72 | corrected header: with masking, the joined items are the masked joined payload; without it, the items are untouched |
| `WsFrame.FrameRoundTrip` | xpra/net/websockets/protocol.py:60-72 | the header followed by the items decodes as one final binary frame whose payload is the joined items, masked or not, and which consumes header plus payload |
| `WsFrame.AlignedItemsMaskAlike` | xpra/net/websockets/protocol.py:69-70 | when every item but the last is a multiple of four bytes long, the masking as written equals the corrected masking |
| `WsFrame.UnalignedItemsMisdelivered` | xpra/net/websockets/protocol.py:65-71 | two one-byte zero items masked as written with key 1,2,3,4 reach the receiver as [0, 3], not [0, 0] |
| `WsProtocol.InitialValid` | xpra/net/websockets/protocol.py:43-45 | a fresh protocol has no saved bytes, no fragments and no pending opcode, so it satisfies the invariant |
| `WsProtocol.Close` | xpra/net/websockets/protocol.py:54-57 | `close` empties the saved bytes and the fragment list and keeps the invariant |
| `WsProtocol.ParseCloseReason` | xpra/net/websockets/protocol.py:146-149 | the reason is unknown exactly when the payload is shorter than two bytes; otherwise the code is the big-endian value of the first two bytes, below 65536, and the reason is the rest of the payload |
| `WsProtocol.CloseReasonRoundTrip` | xpra/net/websockets/protocol.py:146-149 | any two code bytes followed by any reason parse back as the big-endian value of those bytes and that reason |
| `WsProtocol.CloseReasonExample` | xpra/net/websockets/protocol.py:146-149 | the payload `\x03\xe8bye` gives code 1000 and reason "bye" |
| `WsProtocol.Dispatch` | xpra/net/websockets/protocol.py:118-132 | a payload is delivered upward unchanged exactly when the opcode is binary or text; a ping writes one pong; a close frame is handled by the close handler, and only it closes; a pong or an unknown opcode changes nothing and acts on nothing; the invariant is kept |
| `WsProtocol.ProcessClose` | xpra/net/websockets/protocol.py:144-154 | a close frame reports exactly one lost connection, carrying the reason parsed from its payload (unknown exactly when the payload is shorter than two bytes), and closes the protocol |
| `WsProtocol.ProcessCloseAsWritten` | xpra/net/websockets/protocol.py:144-154 | the handler as written, whenever it does not raise, behaves like the corrected handler |
| `WsProtocol.CloseWithInvalidReasonRaises` | xpra/net/websockets/protocol.py:150-154 | for the payload 03 e8 ff, the handler as written raises and leaves the protocol open with no action, while the corrected handler reports code 1000 and closes |
| `WsProtocol.CloseCorrectionAgrees` | xpra/net/websockets/protocol.py:144-154 | on short payloads and valid UTF-8 reasons the handler as written and the corrected one agree |
| `WsProtocol.ProcessPing` | xpra/net/websockets/protocol.py:134-139 | a ping changes no state and writes exactly one frame, which ends with the ping's payload |
| `WsProtocol.ProcessFrame` | xpra/net/websockets/protocol.py:96-132 | an error is raised exactly when a continuation has nothing pending, or a non-continuation arrives while a fragment is pending, or a non-final frame is neither text nor binary; an error changes nothing; a non-final frame acts on nothing; a final non-continuation frame with nothing pending is dispatched on its own opcode and payload; the invariant is kept |
| `WsProtocol.FragmentStart` | xpra/net/websockets/protocol.py:111-117 | a non-final text or binary frame records its opcode and payload and delivers nothing |
| `WsProtocol.FinalContinuation` | xpra/net/websockets/protocol.py:96-106 | a final continuation delivers the chunks joined in arrival order and resets the accumulator |
| `WsProtocol.ApplyFrames` | xpra/net/websockets/protocol.py:84-132 | processing decoded frames in order keeps the invariant and does nothing on a closed protocol |
| `WsProtocol.ContinuationsComplete` | xpra/net/websockets/protocol.py:96-106 | a run of continuations ending in a final one delivers the pending chunks and all the run's payloads joined, once, and empties the accumulator |
| `WsProtocol.FragmentedMessageDelivered` | xpra/net/websockets/protocol.py:96-123 | a non-final text or binary frame followed by continuations is delivered once as the concatenation of all payloads, and the state is as before |
| `WsProtocol.DecodeAll` | xpra/net/websockets/protocol.py:84-93 | there are frames exactly when the decoder finds one at the start of the buffer, and the first frame is that one; the leftover is a suffix of the buffer which, when non-empty, the decoder cannot decode |
| `WsProtocol.ProcessFrames` | xpra/net/websockets/protocol.py:84-132 | the read loop saves exactly the bytes the decoder could not use: when the loop ends neither closed nor in error, the saved bytes are the undecodable tail of the read; it saves none once closed or after an error; it keeps the invariant |
| `WsProtocol.ParseWsFrame` | xpra/net/websockets/protocol.py:74-93 | an empty read is passed upward as it is; a read without a whole frame is appended to the saved bytes; a closed protocol processes nothing; the invariant is kept |
| `WsProtocol.ReadLoopIsFrameFold` | xpra/net/websockets/protocol.py:84-93 | the byte-level loop equals processing the decoded frames in order, then saving the undecoded rest |
| `WsProtocol.FragmentedExample` | xpra/net/websockets/protocol.py:96-123 | binary "AB" (not final), continuation "CD" (not final), continuation "EF" (final) deliver the single payload "ABCDEF" |
| `WsProtocol.SplitReadsAlike` | xpra/net/websockets/protocol.py:78-91 | for a prefix-consistent decoder, two reads a and b give the same actions, state and error as the single read a+b |
| `WsProtocol.ReadLoopSplit` | xpra/net/websockets/protocol.py:78-93 | the read loop on x+b agrees with the loop on x followed by a read of b |
| `WsProtocol.ClosedReadsNothing` | xpra/net/websockets/protocol.py:84 | once closed, a read takes no action and leaves the state as it is |
| `WsProtocol.NothingDeliveredAfterClose` | xpra/net/websockets/protocol.py:54-57 | after `close`, no sequence of non-empty reads delivers anything, including a half-received message |
| `WsProtocol.ReadAll` | xpra/net/websockets/protocol.py:74-93 | successive reads keep the invariant |
| `WsProtocol.PingAnsweredWithPong` | xpra/net/websockets/protocol.py:126-139 | a final ping frame is answered by one written frame that the peer decodes as a final pong with the identical payload; nothing else changes |
| `WsProtocol.WholeFrameDelivered` | xpra/net/websockets/protocol.py:74-121 | a read holding exactly one whole final unmasked text or binary frame, on an open connection with nothing saved or pending, delivers that payload once and leaves the state unchanged |
| `RfbDesktop.DesktopModelOf` | xpra/server/rfb/rfb_server.py:46-54 | there is a desktop model exactly when one window is registered, and it is that window's model |
| `RfbDesktop.DesktopWid` | xpra/server/rfb/rfb_server.py:56-61 | there is a desktop id exactly when one window is registered, and it is that window's id |
| `RfbDesktop.ModelAndWidAgree` | xpra/server/rfb/rfb_server.py:46-61 | the model and the id exist together and form one entry of the window table |
| `RfbDesktop.GetPixelFormat` | xpra/server/rfb/rfb_server.py:91-95 | without a single desktop there is no format (the source raises on `None`); otherwise the format is exactly the desktop's width and height with 32 bits per pixel, depth 32, little-endian true colour, maxima 255, 255, 255 and shifts 16, 8, 0, a well-formed true-colour layout whose three 8-bit channels lie inside the pixel without overlapping |
| `RfbDesktop.PixelFormatOnlyFromDimensions` | xpra/server/rfb/rfb_server.py:91-95 | two desktops of the same size advertise the same format |
| `RfbInput.ChangedBits` | xpra/server/rfb/rfb_server.py:138-140 | the listed bits are in range, ascending, and each differs between the held and the new mask |
| `RfbInput.ChangedBitsComplete` | xpra/server/rfb/rfb_server.py:138-140 | every bit where the masks differ is listed |
| `RfbInput.ButtonChanges` | xpra/server/rfb/rfb_server.py:136-143 | one button action per differing bit, none for an equal bit, at (x, y), for button bit+1, in ascending order, pressed exactly when the new bit is set |
| `RfbInput.SameMaskNoButtons` | xpra/server/rfb/rfb_server.py:136 | equal masks give no button action |
| `RfbInput.PressOneAndThree` | xpra/server/rfb/rfb_server.py:136-143 | from mask 0 to 0b101, exactly buttons 1 and 3 are pressed, in that order |
| `RfbInput.ButtonChangesReachNewMask` | xpra/server/rfb/rfb_server.py:136-144 | replaying the button actions on the held mask yields the new mask, so the actions are exactly the difference |
| `RfbInput.ResolveKeyName` | xpra/server/rfb/rfb_server.py:154-163 | a resolved name is never empty; the table's name wins; a key between 1 and 254 always resolves |
| `RfbInput.ResolveIsFirstCandidate` | xpra/server/rfb/rfb_server.py:154-163 | the name is the first non-empty candidate among the table's name, the character, and the X11 name; none resolves exactly when all are empty |
| `RfbServer.InitialState` | xpra/server/rfb/rfb_server.py:28-36 | a fresh server holds no button (mask 0), has no registered source, and keeps the given window table and input settings |
| `RfbServer.Underscored` | xpra/server/rfb/rfb_server.py:83 | every `-` of the type name becomes `_` and every other character is kept, so no `-` is left |
| `RfbServer.LookupHandler` | xpra/server/rfb/rfb_server.py:81-88 | a handler found for a type is the one whose method name is `_process_rfb_` followed by the underscored type |
| `RfbServer.EveryHandlerReachable` | xpra/server/rfb/rfb_server.py:81-88 | each of the nine handlers is reached by its own type and by no other handler's |
| `RfbServer.HandlerTypeRunsHandler` | xpra/server/rfb/rfb_server.py:81-88 | a packet whose type is a handler's own name runs that handler on the packet |
| `RfbServer.DashedTypeReachable` | xpra/server/rfb/rfb_server.py:83-84 | the type `connection-lost`, spelled with a dash, reaches the `connection_lost` handler |
| `RfbServer.UnderscoredTypesDispatchAlike` | xpra/server/rfb/rfb_server.py:83 | underscoring is idempotent, so a type and its underscored form reach the same handler |
| `RfbServer.ProcessAuthenticated` | xpra/server/rfb/rfb_server.py:103-127 | without a single desktop the protocol is closed and no source is registered; otherwise it is accepted and made blocking first; a refused client gets exactly those two actions and no other change; an accepted one is registered with its share flag, and its keymap is set exactly when the server takes input; an accepted client gets exactly one damage, and the refresh timer of every window, in table order, is started exactly when the server has `start_refresh` |
| `RfbServer.AcceptClient` | xpra/server/rfb/rfb_server.py:111-127 | an accepted client is registered with its share flag and input setting; after accept and blocking come the keymap exactly when input is on, exactly one damage, which covers the whole desktop from the origin, and one refresh-timer start per window in table order exactly when the server has `start_refresh`; no other kind of action |
| `RfbServer.AuthenticatedDamagesWholeDesktop` | xpra/server/rfb/rfb_server.py:119-121 | an accepted client gets a damage of the desktop window at (0, 0) with the advertised width and height, and every damage covers exactly that area |
| `RfbServer.ProcessPointer` | xpra/server/rfb/rfb_server.py:129-144 | with input off or read-only nothing happens; otherwise exactly one pointer move to (x, y) on the desktop window comes first; when the mask differs from the stored one, the actions after it are exactly the button changes between the two masks, and none follow an equal mask; the packet's mask is stored |
| `RfbServer.PointerButtonsReplay` | xpra/server/rfb/rfb_server.py:136-144 | the emitted button actions, replayed on the old mask, give the stored mask, which is the packet's mask |
| `RfbServer.ProcessKey` | xpra/server/rfb/rfb_server.py:146-170 | no state changes and at most one action; a key action needs input on, a writable server, a registered source and a resolved name, and carries that name, its non-zero keycode and the modifier flag |
| `RfbServer.KeyForwardedIff` | xpra/server/rfb/rfb_server.py:154-170 | a KeyEvent is forwarded exactly when input is on, the server is writable, the source exists, the name resolves and its keycode is non-zero; the one action is then the key event on the desktop with the press flag, the resolved name, its keycode and whether that keycode is a modifier |
| `RfbServer.PrintableKeyUsesCharacter` | xpra/server/rfb/rfb_server.py:156-158 | a keysym between 1 and 254 that is missing from the table is forwarded under its own character |
| `RfbServer.HandlerRefreshes` | xpra/server/rfb/rfb_server.py:184-190 | one handler refreshes only for a non-incremental FramebufferUpdateRequest, once, over the desktop model and the packet's rectangle |
| `RfbServer.RefreshesFollowRequests` | xpra/server/rfb/rfb_server.py:184-190 | over any packet stream, the Refresh actions are exactly the rectangles of the non-incremental FramebufferUpdateRequests, in packet order, each over the desktop model; incremental requests and every other packet refresh nothing |
| `RfbServer.ProcessLogOnly` | xpra/server/rfb/rfb_server.py:172-195 | SetEncodings, SetPixelFormat and ClientCutText change no state; only a packet too short for the fields read makes the handler fail |
| `RfbServer.RunHandler` | xpra/server/rfb/rfb_server.py:97-195 | no handler changes the window table or the input settings; only the PointerEvent handler changes the mask; only the authenticated handler changes the sources; a mask below 256 stays below 256 |
| `RfbServer.ProcessPacket` | xpra/server/rfb/rfb_server.py:81-88 | an unknown type changes nothing; a known type runs exactly its own handler on the packet; no packet changes the window table; only a PointerEvent changes the mask; only authentication changes the sources; a mask below 256 stays below 256 |
| `RfbServer.UnknownPacketDropped` | xpra/server/rfb/rfb_server.py:84-87 | a packet of unknown type neither disconnects nor closes the connection, and changes no state |
| `RfbServer.DisconnectOnlyOnInvalid` | xpra/server/rfb/rfb_server.py:97-98 | a packet disconnects the client exactly when its type reaches the `invalid` handler; no other handler, and no unknown type, disconnects |
| `RfbServer.CloseOnlyWithoutDesktop` | xpra/server/rfb/rfb_server.py:103-107 | a packet closes the protocol exactly when it reaches the authenticated handler while there is no single desktop |
| `RfbServer.NoEndingActions` | xpra/server/rfb/rfb_server.py:100-195 | the handlers other than `invalid` and `authenticated`, `connection_lost` included, neither disconnect nor close |
| `RfbServer.PointerActions` | xpra/server/rfb/rfb_server.py:129-144 | a PointerEvent only moves the pointer and presses or releases buttons |
| `RfbServer.KeyActions` | xpra/server/rfb/rfb_server.py:146-170 | a KeyEvent only forwards a key |
| `RfbServer.AuthenticatedActions` | xpra/server/rfb/rfb_server.py:108-127 | with a desktop, authentication only accepts, unblocks, sets the keymap, damages and starts refresh timers |
| `RfbServer.PixelFormatStable` | xpra/server/rfb/rfb_server.py:180-182 | the advertised pixel format is the same before and after any packet, SetPixelFormat included |
| `RfbServer.ProcessPackets` | xpra/server/rfb/rfb_server.py:81-88 | a packet stream never changes the window table or the server's input settings |
| `RfbServer.PacketMask` | xpra/server/rfb/rfb_server.py:129-144 | on a server that takes input, a PointerEvent stores its mask and any other packet keeps it |
| `RfbServer.StoredMaskIsLastPointerMask` | xpra/server/rfb/rfb_server.py:136-144 | after any packet stream, the stored mask is that of the last PointerEvent, or the earlier one when the stream had none |
| `RfbServer.HandleRfbConnection` | xpra/server/rfb/rfb_server.py:64-77 | the connection is closed exactly when there is no single desktop; more than one authenticator is an assertion failure; otherwise the handshake gets the only authenticator, or none |
| `RfbServer.HandshakeIffAccepted` | xpra/server/rfb/rfb_server.py:103-110 | unless there are too many authenticators, the handshake starts exactly when authentication on the same windows accepts the protocol, and the connection is closed exactly when authentication would only close it |

## Left out

- The header codec `encode_hybi_header`/`decode_hybi` and the XOR
  primitive `hybi_mask` are not part of this model. The codec is a pair of
  function values. `DecoderContract`, `PrefixConsistent` and `CodecRoundTrip`
  state what is assumed of it. `hybi_mask` is modelled as the XOR of section
  5.3 of RFC 6455, starting at the first key byte.
- `os.urandom(4)`: the masking key is a parameter.
- `XPRA_WEBSOCKET_MASK` (the `ws_mask` setting) is the `masked` parameter.
- `ProcessClose` reports the close reason as its raw bytes, not as the
  decoded text that `_process_ws_close` formats. UTF-8 decoding is a function value (`Utf8Decoder`). It is
  used only to model the failing path as written.
- `_connection_lost` belongs to the base `Protocol` class, which is not part
  of this model. It is assumed to end in `close`, so a close frame is
  modelled as a `ConnectionLost` action followed by `Close`.
  `ProcessConnectionLost` likewise only emits an action and does not remove
  the source.
- Logging, `first_time` warnings, the write lock, `raw_write` and
  `_read_queue_put` are left out. A write is a `Write` action and a hand-up
  is a `Deliver` action.
- `idle_add`: handlers run at once instead of on the main loop. Handlers of
  one connection run in arrival order either way.
- The `assert` at xpra/net/websockets/protocol.py:97 and the one at
  xpra/server/rfb/rfb_server.py:71 are modelled as enabled. Under
  `python -O` both are skipped, and two authenticators would then start the
  handshake without one instead of failing.
- `set_socket_timeout`, `accept_protocol`, `set_keymap`, `disconnect_protocol`,
  `refresh_window_area`, `_move_pointer`, `button_action`, `_handle_key`,
  `source.damage` and `start_refresh` are emitted as actions. Their effects
  are not modelled.
- `handle_sharing` is a function value (`sharingAccepted`). The other clients
  it may disconnect are not modelled.
- The keyboard configuration's `get_keycode` and `is_modifier`, and the X11
  `keysym_str`, are function values. The bindings exist only on POSIX
  systems other than macOS, so `keysym_str` is optional. Where it is
  missing, the model treats it as absent, not as an attribute error.
- `RFB_KEYNAMES` and `RFBEncoding.ENCODING_STR` are not part of this model.
  The key name table is a parameter. SetEncodings only logs, so its encoding
  table is not needed.
- `init`, the `rfb-upgrade` option, `make_authenticators`, `do_make_protocol`,
  `send_protocol_handshake` and `RFBProtocol` itself are left out. Packets
  arrive already parsed, and `HandleRfbConnection` stops where the handshake
  begins.
- A packet whose fields do not fit its handler (a parse the source never
  produces) ends in a `HandlerFailed` action, standing for the exception
  the handler would raise.
- `RfbServer.ProcessLogOnly`: does not model ClientCutText as a clipboard
  update, because the handler only logs the text.
- The other files of the repository are not part of this model: the macOS
  GUI glue, the X11 tray and selection code, and the GTK splash screen. They
  are platform, toolkit or X11 calls.

## Findings

| source | as written | input that shows it | evidently intended | confidence | as-written member | corrected member |
|---|---|---|---|---|---|---|
| xpra/net/websockets/protocol.py:150-154 | when the reason bytes are not UTF-8, the handler reads `reason` before it is assigned and raises before reporting the lost connection | close payload 03 e8 ff | report the lost connection with code 1000 and the raw reason | high, not executed | `WsProtocol.ProcessCloseAsWritten` (shown by `WsProtocol.CloseWithInvalidReasonRaises`) | `WsProtocol.ProcessClose` (agreement on valid input: `WsProtocol.CloseCorrectionAgrees`) |
| xpra/net/websockets/protocol.py:69-70 | each payload item is masked on its own from the first key byte, but the receiver unmasks the joined payload from the first key byte | masking on, items [0] and [0], key 1 2 3 4: the receiver reads [0, 3] | mask the joined payload as one, each item continuing at the key position where the previous one ended | medium (correct whenever every item but the last is a multiple of four bytes long), not executed | `WsFrame.MakeFrameHeaderAsWritten` (shown by `WsFrame.UnalignedItemsMisdelivered`) | `WsFrame.MakeFrameHeader` (round trip: `WsFrame.FrameRoundTrip`) |

=== FILE: bytes.dfy ===
/**
  Byte strings and the two byte-level helpers the protocol layer needs:
  joining a list of chunks and reading a big-endian 16-bit value.
 */
module Bytes {

  type byte = bv8
  type bytes = seq<byte>

  /** Total number of bytes held by a list of chunks. */
  function TotalLength(chunks: seq<bytes>): nat
  {
    if |chunks| == 0 then 0 else TotalLength(chunks[..|chunks| - 1]) + |chunks[|chunks| - 1]|
  }

  /** `b"".join(chunks)`: the chunks laid end to end in list order. */
  function Join(chunks: seq<bytes>): (r: bytes)
    ensures |r| == TotalLength(chunks)
  {
    if |chunks| == 0 then [] else Join(chunks[..|chunks| - 1]) + chunks[|chunks| - 1]
  }

  /** Joining keeps every byte of every chunk, at the offset given by the
      lengths of the chunks before it. */
  lemma {:induction false} JoinContents(chunks: seq<bytes>, i: nat, j: nat)
    requires i < |chunks| && j < |chunks[i]|
    ensures TotalLength(chunks[..i]) + j < |Join(chunks)|
    ensures Join(chunks)[TotalLength(chunks[..i]) + j] == chunks[i][j]
  {
    var n := |chunks|;
    if i == n - 1 {
      assert chunks[..n - 1] == chunks[..i];
    } else {
      assert chunks[..n - 1][..i] == chunks[..i];
      JoinContents(chunks[..n - 1], i, j);
    }
  }

  /** Joining distributes over list concatenation. */
  lemma {:induction false} JoinAppend(a: seq<bytes>, b: seq<bytes>)
    ensures Join(a + b) == Join(a) + Join(b)
    decreases |b|
  {
    if |b| == 0 {
      assert a + b == a;
    } else {
      var b' := b[..|b| - 1];
      assert (a + b)[..|a + b| - 1] == a + b';
      JoinAppend(a, b');
    }
  }

  /** Joining three chunks lays them end to end. */
  lemma JoinThree(a: bytes, b: bytes, c: bytes)
    ensures Join([a, b, c]) == a + b + c
  {
    assert Join([a]) == a by {
      assert [a][..0] == [];
    }
    assert Join([a, b]) == a + b by {
      assert [a, b][..1] == [a];
    }
    assert [a, b, c][..2] == [a, b];
  }

  /** The unsigned big-endian 16-bit value of two bytes (`struct.unpack(">H", ...)`). */
  function Be16(hi: byte, lo: byte): nat
  {
    (hi as nat) * 256 + lo as nat
  }

  /** Every value read is a 16-bit value. */
  lemma Be16Bound(hi: byte, lo: byte)
    ensures Be16(hi, lo) < 65536
  {
    assert hi as nat < 256 && lo as nat < 256;
  }

  /** Distinct byte pairs give distinct values, so a close code determines
      the two bytes it was read from. */
  lemma Be16Injective(h1: byte, l1: byte, h2: byte, l2: byte)
    requires Be16(h1, l1) == Be16(h2, l2)
    ensures h1 == h2 && l1 == l2
  {
    Be16Digits(h1, l1);
    Be16Digits(h2, l2);
  }

  /** The high byte is the quotient by 256, the low byte the remainder. */
  lemma Be16Digits(hi: byte, lo: byte)
    ensures Be16(hi, lo) / 256 == hi as nat && Be16(hi, lo) % 256 == lo as nat
  {
    var h, l := hi as nat, lo as nat;
    assert l < 256;
    assert (h * 256 + l) / 256 == h;
  }
}

=== FILE: optional.dfy ===
/** A value that may be absent: Python's `None` or a real value. */
module Optional {

  datatype Option<+T> = None | Some(value: T)
}

=== FILE: rfb_desktop.dfy ===
/**
  The single exported desktop and the pixel format advertised for it.

  The RFB server exports exactly one window: with no window, or with more
  than one, there is no desktop model and no desktop window id.
 */
module RfbDesktop {
  import opened Optional
  import opened RfbTypes

  /** `_get_rfb_desktop_model`: the model of the one registered window. */
  function DesktopModelOf(windows: seq<WindowEntry>): (r: Option<DesktopModel>)
    ensures r.Some? <==> |windows| == 1
    ensures r.Some? ==> forall e :: e in windows ==> e.model == r.value
  {
    if |windows| == 0 then None
    else if |windows| != 1 then None
    else Some(windows[0].model)
  }

  /** `_get_rfb_desktop_wid`: the id of the one registered window. */
  function DesktopWid(windows: seq<WindowEntry>): (r: Option<nat>)
    ensures r.Some? <==> |windows| == 1
    ensures r.Some? ==> forall e :: e in windows ==> e.wid == r.value
  {
    if |windows| != 1 then None else Some(windows[0].wid)
  }

  /** The desktop model and the desktop window id exist together, and then
      they are the two halves of the same table entry: the id is what the
      table maps the model to. */
  lemma ModelAndWidAgree(windows: seq<WindowEntry>)
    ensures DesktopModelOf(windows).Some? <==> DesktopWid(windows).Some?
    ensures DesktopModelOf(windows).Some? ==>
              WindowEntry(DesktopModelOf(windows).value, DesktopWid(windows).value) in windows
  {
    if |windows| == 1 {
      assert windows[0] in windows;
    }
  }

  /** The twelve values of the PIXEL_FORMAT structure of section 7.4 of
      RFC 6143, in wire order. The source's own comment lists the last
      three as red, blue, green shift; the tuple is sent in wire order, so
      its eleventh value is the green shift and its twelfth the blue one,
      and the fields are named by that order. */
  datatype PixelFormat = PixelFormat(
    width: nat, height: nat,
    bitsPerPixel: nat, depth: nat, bigEndian: bool, trueColour: bool,
    redMax: nat, greenMax: nat, blueMax: nat,
    redShift: nat, greenShift: nat, blueShift: nat)

  /** `get_rfb_pixelformat`: the desktop's dimensions with a fixed 32-bit
      little-endian true-colour layout, red in bits 16-23, green in 8-15 and
      blue in 0-7. Without a single desktop the source calls
      `get_dimensions` on None and raises; that is the None result. */
  function GetPixelFormat(windows: seq<WindowEntry>): (r: Option<PixelFormat>)
    ensures r.Some? <==> DesktopModelOf(windows).Some?
    ensures r.Some? ==>
              var m := DesktopModelOf(windows).value;
              r.value == PixelFormat(m.width, m.height, 32, 32, false, true, 255, 255, 255, 16, 8, 0)
    ensures r.Some? ==> WellFormedTrueColour(r.value)
  {
    match DesktopModelOf(windows)
    case None => None
    case Some(m) =>
      var pf := PixelFormat(m.width, m.height, 32, 32, false, true, 255, 255, 255, 16, 8, 0);
      EightBitChannel();
      Some(pf)
  }

  /** The number of bits a colour maximum spans. */
  function Bits(max: nat): nat
  {
    if max == 0 then 0 else 1 + Bits(max / 2)
  }

  /** A colour maximum is one less than a power of two (section 7.4 of
      RFC 6143). */
  ghost predicate IsChannelMax(max: nat)
  {
    max + 1 == Pow2(Bits(max))
  }

  /** The bit range a channel occupies within a pixel. */
  ghost predicate Disjoint(s1: nat, m1: nat, s2: nat, m2: nat)
  {
    s1 + Bits(m1) <= s2 || s2 + Bits(m2) <= s1
  }

  /** A true-colour format whose three channels are proper maxima, lie
      inside the pixel without overlapping, and whose depth fits the pixel. */
  ghost predicate WellFormedTrueColour(pf: PixelFormat)
  {
    && pf.trueColour
    && (pf.bitsPerPixel == 8 || pf.bitsPerPixel == 16 || pf.bitsPerPixel == 32)
    && pf.depth <= pf.bitsPerPixel
    && IsChannelMax(pf.redMax) && IsChannelMax(pf.greenMax) && IsChannelMax(pf.blueMax)
    && pf.redShift + Bits(pf.redMax) <= pf.bitsPerPixel
    && pf.greenShift + Bits(pf.greenMax) <= pf.bitsPerPixel
    && pf.blueShift + Bits(pf.blueMax) <= pf.bitsPerPixel
    && Disjoint(pf.redShift, pf.redMax, pf.greenShift, pf.greenMax)
    && Disjoint(pf.redShift, pf.redMax, pf.blueShift, pf.blueMax)
    && Disjoint(pf.greenShift, pf.greenMax, pf.blueShift, pf.blueMax)
  }

  lemma EightBitChannel()
    ensures Bits(255) == 8 && Pow2(8) == 256
    ensures IsChannelMax(255)
  {
    assert Bits(255) == 1 + Bits(127);
    assert Bits(127) == 1 + Bits(63);
    assert Bits(63) == 1 + Bits(31);
    assert Bits(31) == 1 + Bits(15);
    assert Bits(15) == 1 + Bits(7);
    assert Bits(7) == 1 + Bits(3);
    assert Bits(3) == 1 + Bits(1);
    assert Bits(1) == 1 + Bits(0);
  }

  /** Only the dimensions of the desktop reach the advertised format: two
      desktops of the same size advertise the same format. */
  lemma PixelFormatOnlyFromDimensions(w1: seq<WindowEntry>, w2: seq<WindowEntry>)
    requires DesktopModelOf(w1).Some? && DesktopModelOf(w2).Some?
    requires DesktopModelOf(w1).value.width == DesktopModelOf(w2).value.width
    requires DesktopModelOf(w1).value.height == DesktopModelOf(w2).value.height
    ensures GetPixelFormat(w1).Some? && GetPixelFormat(w1) == GetPixelFormat(w2)
  {
  }
}

=== FILE: rfb_input.dfy ===
/**
  The input decisions of the RFB handlers: which mouse buttons a
  PointerEvent presses or releases (section 7.5.5 of RFC 6143), and which
  key name a KeyEvent's keysym stands for (section 7.5.4 of RFC 6143).
 */
module RfbInput {
  import opened Bytes
  import opened Optional
  import opened RfbTypes

  /** Whether bit `b` of a button mask is set (`mask & 2**b != 0`).
      Button `b + 1` is down exactly when bit `b` is set. */
  predicate Bit(mask: nat, b: nat)
  {
    if b == 0 then mask % 2 == 1 else Bit(mask / 2, b - 1)
  }

  /** The bits from `bit` to 7 where the mask held so far and the packet's
      mask differ, in ascending order. */
  function ChangedBits(held: nat, buttons: nat, bit: nat): (r: seq<nat>)
    requires bit <= 8
    ensures forall i :: 0 <= i < |r| ==> bit <= r[i] < 8 && Bit(held, r[i]) != Bit(buttons, r[i])
    ensures forall i, j :: 0 <= i < j < |r| ==> r[i] < r[j]
    decreases 8 - bit
  {
    if bit == 8 then []
    else if Bit(held, bit) == Bit(buttons, bit) then ChangedBits(held, buttons, bit + 1)
    else [bit] + ChangedBits(held, buttons, bit + 1)
  }

  /** No differing bit is missed. */
  lemma {:induction false} ChangedBitsComplete(held: nat, buttons: nat, bit: nat, b: nat)
    requires bit <= b < 8 && Bit(held, b) != Bit(buttons, b)
    ensures b in ChangedBits(held, buttons, bit)
    decreases 8 - bit
  {
    if bit < b {
      ChangedBitsComplete(held, buttons, bit + 1, b);
    }
  }

  /** One button action per bit, in the order of the bits. */
  function BitActions(bits: seq<nat>, buttons: nat, x: nat, y: nat): (r: seq<Action>)
    requires forall i :: 0 <= i < |bits| ==> bits[i] < 8
    ensures |r| == |bits|
    ensures forall i :: 0 <= i < |r| ==> r[i] == ButtonAction(x, y, bits[i] + 1, Bit(buttons, bits[i]))
  {
    seq(|bits|, i requires 0 <= i < |bits| => ButtonAction(x, y, bits[i] + 1, Bit(buttons, bits[i])))
  }

  /** The button actions of a PointerEvent at (x, y), one per changed bit in
      ascending order: button `b + 1` is pressed when the packet's bit `b` is
      set and released otherwise. */
  function ButtonChanges(held: nat, buttons: nat, x: nat, y: nat): (r: seq<Action>)
    ensures forall i :: 0 <= i < |r| ==>
              && r[i].ButtonAction? && r[i].x == x && r[i].y == y
              && 1 <= r[i].button <= 8
              && Bit(held, r[i].button - 1) != Bit(buttons, r[i].button - 1)
              && r[i].pressed == Bit(buttons, r[i].button - 1)
    ensures forall i, j :: 0 <= i < j < |r| ==> r[i].button < r[j].button
    ensures forall b :: 0 <= b < 8 && Bit(held, b) != Bit(buttons, b) ==>
              ButtonAction(x, y, b + 1, Bit(buttons, b)) in r
  {
    var r := BitActions(ChangedBits(held, buttons, 0), buttons, x, y);
    ActionsMatchBits(held, buttons, x, y);
    ActionsAscend(held, buttons, x, y);
    ActionsComplete(held, buttons, x, y);
    r
  }

  lemma ActionsMatchBits(held: nat, buttons: nat, x: nat, y: nat)
    ensures var r := BitActions(ChangedBits(held, buttons, 0), buttons, x, y);
            forall i :: 0 <= i < |r| ==>
              && r[i].ButtonAction? && r[i].x == x && r[i].y == y
              && 1 <= r[i].button <= 8
              && Bit(held, r[i].button - 1) != Bit(buttons, r[i].button - 1)
              && r[i].pressed == Bit(buttons, r[i].button - 1)
  {
    var bits := ChangedBits(held, buttons, 0);
    var r := BitActions(bits, buttons, x, y);
    forall i | 0 <= i < |r|
      ensures Bit(held, r[i].button - 1) != Bit(buttons, r[i].button - 1)
      ensures r[i].pressed == Bit(buttons, r[i].button - 1)
    {
      assert r[i].button - 1 == bits[i];
    }
  }

  lemma ActionsAscend(held: nat, buttons: nat, x: nat, y: nat)
    ensures var r := BitActions(ChangedBits(held, buttons, 0), buttons, x, y);
            forall i, j :: 0 <= i < j < |r| ==> r[i].button < r[j].button
  {
  }

  lemma ActionsComplete(held: nat, buttons: nat, x: nat, y: nat)
    ensures var r := BitActions(ChangedBits(held, buttons, 0), buttons, x, y);
            forall b :: 0 <= b < 8 && Bit(held, b) != Bit(buttons, b) ==>
              ButtonAction(x, y, b + 1, Bit(buttons, b)) in r
  {
    var bits := ChangedBits(held, buttons, 0);
    var r := BitActions(bits, buttons, x, y);
    forall b | 0 <= b < 8 && Bit(held, b) != Bit(buttons, b)
      ensures ButtonAction(x, y, b + 1, Bit(buttons, b)) in r
    {
      ChangedBitsComplete(held, buttons, 0, b);
      var i :| 0 <= i < |bits| && bits[i] == b;
      assert r[i] == ButtonAction(x, y, b + 1, Bit(buttons, b));
    }
  }

  /** Equal masks press and release nothing. */
  lemma SameMaskNoButtons(mask: nat, x: nat, y: nat)
    ensures ButtonChanges(mask, mask, x, y) == []
  {
  }

  /** Going from no button down to mask 0b101 presses buttons 1 and 3 only. */
  lemma PressOneAndThree(x: nat, y: nat)
    ensures ButtonChanges(0, 5, x, y) == [ButtonAction(x, y, 1, true), ButtonAction(x, y, 3, true)]
  {
    assert Bit(5, 0) && !Bit(5, 1) && Bit(5, 2);
    assert !Bit(5, 3) && !Bit(5, 4) && !Bit(5, 5) && !Bit(5, 6) && !Bit(5, 7);
    assert forall b :: 0 <= b < 8 ==> !Bit(0, b);
    assert ChangedBits(0, 5, 3) == [];
    assert ChangedBits(0, 5, 0) == [0, 2];
  }

  /** A mask with bit `b` set to `v` and every other bit kept. */
  function SetBit(mask: nat, b: nat, v: bool): (r: nat)
  {
    if b == 0 then 2 * (mask / 2) + (if v then 1 else 0)
    else 2 * SetBit(mask / 2, b - 1, v) + mask % 2
  }

  /** Setting a bit changes that bit and no other. */
  lemma {:induction false} SetBitBits(mask: nat, b: nat, v: bool, c: nat)
    ensures Bit(SetBit(mask, b, v), c) == if c == b then v else Bit(mask, c)
    decreases b
  {
    var r := SetBit(mask, b, v);
    if b == 0 {
      assert r / 2 == mask / 2 && r % 2 == (if v then 1 else 0);
    } else {
      var s := SetBit(mask / 2, b - 1, v);
      assert r / 2 == s && r % 2 == mask % 2;
      if c > 0 {
        SetBitBits(mask / 2, b - 1, v, c - 1);
      }
    }
  }

  /** Setting one of the low `k` bits keeps a mask below `2**k`. */
  lemma {:induction false} SetBitBound(mask: nat, b: nat, v: bool, k: nat)
    requires b < k && mask < Pow2(k)
    ensures SetBit(mask, b, v) < Pow2(k)
    decreases b
  {
    var half := Pow2(k - 1);
    assert Pow2(k) == 2 * half;
    assert mask / 2 < half;
    if b > 0 {
      SetBitBound(mask / 2, b - 1, v, k - 1);
      assert SetBit(mask, b, v) == 2 * SetBit(mask / 2, b - 1, v) + mask % 2;
    }
  }

  /** Two masks below `2**k` that agree on their low `k` bits are equal. */
  lemma {:induction false} BitsDetermineMask(m: nat, n: nat, k: nat)
    requires m < Pow2(k) && n < Pow2(k)
    requires forall b :: 0 <= b < k ==> Bit(m, b) == Bit(n, b)
    ensures m == n
    decreases k
  {
    if k > 0 {
      assert Bit(m, 0) == Bit(n, 0);
      forall b | 0 <= b < k - 1
        ensures Bit(m / 2, b) == Bit(n / 2, b)
      {
        assert Bit(m, b + 1) == Bit(n, b + 1);
      }
      BitsDetermineMask(m / 2, n / 2, k - 1);
    }
  }

  /** The button state an input device ends in after a list of actions:
      each press sets, each release clears, the bit of its button. */
  function ApplyButtons(mask: nat, actions: seq<Action>): nat
    decreases |actions|
  {
    if |actions| == 0 then mask
    else
      var a := actions[0];
      var m := if a.ButtonAction? && 1 <= a.button <= 8 then SetBit(mask, a.button - 1, a.pressed) else mask;
      ApplyButtons(m, actions[1..])
  }

  /** Replaying the button actions of a PointerEvent on the mask held so far
      gives the packet's mask: the actions are exactly the difference between
      the two. */
  lemma ButtonChangesReachNewMask(held: nat, buttons: nat, x: nat, y: nat)
    requires held < 256 && buttons < 256
    ensures ApplyButtons(held, ButtonChanges(held, buttons, x, y)) == buttons
  {
    ReplayFrom(held, buttons, x, y, 0, held);
  }

  lemma ApplyFirstAction(m: nat, k: nat, rest: seq<nat>, buttons: nat, x: nat, y: nat)
    requires k < 8 && forall i :: 0 <= i < |rest| ==> rest[i] < 8
    ensures ApplyButtons(m, BitActions([k] + rest, buttons, x, y))
            == ApplyButtons(SetBit(m, k, Bit(buttons, k)), BitActions(rest, buttons, x, y))
  {
    BitActionsCons(k, rest, buttons, x, y);
    ApplyButtonsCons(m, ButtonAction(x, y, k + 1, Bit(buttons, k)), BitActions(rest, buttons, x, y));
  }

  lemma BitActionsCons(k: nat, rest: seq<nat>, buttons: nat, x: nat, y: nat)
    requires k < 8 && forall i :: 0 <= i < |rest| ==> rest[i] < 8
    ensures BitActions([k] + rest, buttons, x, y)
            == [ButtonAction(x, y, k + 1, Bit(buttons, k))] + BitActions(rest, buttons, x, y)
  {
    var r := BitActions([k] + rest, buttons, x, y);
    var t := BitActions(rest, buttons, x, y);
    forall i | 1 <= i < |r| ensures r[i] == t[i - 1] {
      assert ([k] + rest)[i] == rest[i - 1];
    }
  }

  lemma ApplyButtonsCons(m: nat, a: Action, tail: seq<Action>)
    ensures ApplyButtons(m, [a] + tail)
            == ApplyButtons(if a.ButtonAction? && 1 <= a.button <= 8 then SetBit(m, a.button - 1, a.pressed) else m, tail)
  {
    assert ([a] + tail)[0] == a && ([a] + tail)[1..] == tail;
  }

  /** Replaying the action for bit `k` moves the boundary between packet
      bits and old bits one up. */
  lemma ReplayStep(held: nat, buttons: nat, k: nat, m: nat)
    requires k < 8 && m < 256
    requires forall b :: 0 <= b < k ==> Bit(m, b) == Bit(buttons, b)
    requires forall b :: k < b < 8 ==> Bit(m, b) == Bit(held, b)
    ensures var m' := SetBit(m, k, Bit(buttons, k));
            && m' < 256
            && (forall b :: 0 <= b < k + 1 ==> Bit(m', b) == Bit(buttons, b))
            && (forall b :: k + 1 <= b < 8 ==> Bit(m', b) == Bit(held, b))
  {
    var m' := SetBit(m, k, Bit(buttons, k));
    assert Pow2(8) == 256;
    SetBitBound(m, k, Bit(buttons, k), 8);
    forall b | 0 <= b < 8
      ensures Bit(m', b) == if b == k then Bit(buttons, k) else Bit(m, b)
    {
      SetBitBits(m, k, Bit(buttons, k), b);
    }
  }

  /** The step behind the above: from bit `k` on, the mask being replayed
      still holds the old bits, and below `k` it holds the packet's bits. */
  lemma {:induction false} ReplayFrom(held: nat, buttons: nat, x: nat, y: nat, k: nat, m: nat)
    requires k <= 8 && m < 256 && buttons < 256
    requires forall b :: 0 <= b < k ==> Bit(m, b) == Bit(buttons, b)
    requires forall b :: k <= b < 8 ==> Bit(m, b) == Bit(held, b)
    ensures ApplyButtons(m, BitActions(ChangedBits(held, buttons, k), buttons, x, y)) == buttons
    decreases 8 - k
  {
    if k == 8 {
      assert Pow2(8) == 256;
      BitsDetermineMask(m, buttons, 8);
    } else if Bit(held, k) != Bit(buttons, k) {
      ReplayStep(held, buttons, k, m);
      ReplayFrom(held, buttons, x, y, k + 1, SetBit(m, k, Bit(buttons, k)));
      ReplayDiffer(held, buttons, x, y, k, m);
    } else {
      ReplayFrom(held, buttons, x, y, k + 1, m);
      assert ChangedBits(held, buttons, k) == ChangedBits(held, buttons, k + 1);
    }
  }

  lemma ReplayDiffer(held: nat, buttons: nat, x: nat, y: nat, k: nat, m: nat)
    requires k < 8 && Bit(held, k) != Bit(buttons, k)
    requires ApplyButtons(SetBit(m, k, Bit(buttons, k)), BitActions(ChangedBits(held, buttons, k + 1), buttons, x, y)) == buttons
    ensures ApplyButtons(m, BitActions(ChangedBits(held, buttons, k), buttons, x, y)) == buttons
  {
    var rest := ChangedBits(held, buttons, k + 1);
    assert ChangedBits(held, buttons, k) == [k] + rest;
    ApplyFirstAction(m, k, rest, buttons, x, y);
  }

  /** `keysym_str` of the X11 keyboard bindings, present only where they
      exist; the empty string stands for no name. */
  type KeysymNamer = Option<nat -> string>

  /** The key name for a keysym, tried in this order: the RFB key name
      table, the character itself for 0 < key < 255, then the X11 keysym
      name. Empty names count as missing. */
  function ResolveKeyName(key: nat, keynames: map<nat, string>, keysymName: KeysymNamer): (r: Option<string>)
    ensures r.Some? ==> r.value != []
    ensures key in keynames && keynames[key] != [] ==> r == Some(keynames[key])
    ensures r.None? ==> !(0 < key < 255)
  {
    var fromTable := if key in keynames then keynames[key] else [];
    if fromTable != [] then Some(fromTable)
    else if 0 < key < 255 then Some([key as char])
    else match keysymName
      case None => None
      case Some(name) => if name(key) != [] then Some(name(key)) else None
  }

  /** The first non-empty name of a list, if any. */
  function FirstNamed(names: seq<string>): (r: Option<string>)
    ensures r.Some? <==> exists i :: 0 <= i < |names| && names[i] != []
    ensures r.Some? ==> r.value in names && r.value != []
  {
    if |names| == 0 then None
    else if names[0] != [] then Some(names[0])
    else
      var r := FirstNamed(names[1..]);
      assert forall i :: 1 <= i < |names| ==> names[i] == names[1..][i - 1];
      r
  }

  /** The three candidate names of a keysym, in order of preference. */
  function Candidates(key: nat, keynames: map<nat, string>, keysymName: KeysymNamer): seq<string>
  {
    [ if key in keynames then keynames[key] else [],
      if 0 < key < 255 then [key as char] else [],
      match keysymName case None => [] case Some(name) => name(key) ]
  }

  /** Key resolution picks the first candidate that names the key; it is
      unresolved exactly when no candidate does. */
  lemma ResolveIsFirstCandidate(key: nat, keynames: map<nat, string>, keysymName: KeysymNamer)
    ensures ResolveKeyName(key, keynames, keysymName) == FirstNamed(Candidates(key, keynames, keysymName))
  {
    var cs := Candidates(key, keynames, keysymName);
    assert cs[1..][1..] == [cs[2]];
    assert [cs[2]][1..] == [];
  }
}

=== FILE: rfb_server.dfy ===
/**
  `RFBServer`: what the server does with a packet once the RFB protocol has
  parsed it. Each handler is a function from the session state and the
  packet to the new state and the actions it takes, in order.

  The collaborators the handlers call (the keyboard configuration of a
  source, the X11 keysym names, the sharing policy) enter as an environment
  of function values. Handlers run at once instead of from the main loop.
 */
module RfbServer {
  import opened Optional
  import opened RfbTypes
  import opened RfbDesktop
  import opened RfbInput

  /** The server's record of an authenticated RFB client: the shared flag
      it asked for, and whether its keyboard was configured. */
  datatype Source = Source(share: bool, keyboardConfigured: bool)

  /** The part of the server the RFB handlers read and write:
      - `windows`: the window table (`_window_to_id`), in insertion order;
      - `readonly`: the server refuses input;
      - `inputDevices`: the server was built with input device support;
      - `buttons`: the button mask of the last PointerEvent (`rfb_buttons`);
      - `sources`: the registered clients, keyed by connection. */
  datatype RfbState = RfbState(
    windows: seq<WindowEntry>,
    readonly: bool,
    inputDevices: bool,
    buttons: nat,
    sources: map<nat, Source>)

  /** A fresh server: no button held, no client registered. */
  function InitialState(windows: seq<WindowEntry>, readonly: bool, inputDevices: bool): (r: RfbState)
    ensures ServerValid(r)
    ensures r.buttons == 0 && r.sources == map[]
    ensures r.windows == windows && r.readonly == readonly && r.inputDevices == inputDevices
  {
    RfbState(windows, readonly, inputDevices, 0, map[])
  }

  /** The stored mask is what a one-byte field of a PointerEvent can hold. */
  predicate ServerValid(st: RfbState)
  {
    st.buttons < 256
  }

  /** The collaborators:
      - `keynames`: the RFB key name table, keyed by keysym;
      - `keysymName`: the X11 keysym names, where the bindings exist;
      - `keycodeOf`: the keycode the keyboard configuration gives a key name
        and its pressed flag, 0 for none;
      - `isModifier`: whether the keyboard configuration calls a keycode a
        modifier;
      - `sharingAccepted`: the server's sharing policy for a new client;
      - `hasStartRefresh`: the server (a shadow server) has a refresh timer
        to start. */
  datatype Env = Env(
    keynames: map<nat, string>,
    keysymName: KeysymNamer,
    keycodeOf: (string, nat) -> int,
    isModifier: int -> bool,
    sharingAccepted: Proto -> bool,
    hasStartRefresh: bool)

  datatype Step = Step(state: RfbState, actions: seq<Action>)

  /** The handlers the server defines. */
  datatype Handler =
    | InvalidHandler
    | ConnectionLostHandler
    | AuthenticatedHandler
    | PointerEventHandler
    | KeyEventHandler
    | SetEncodingsHandler
    | SetPixelFormatHandler
    | FramebufferUpdateRequestHandler
    | ClientCutTextHandler

  /** The packet type each handler answers, with `_` for `-`. */
  function HandlerKind(h: Handler): string
  {
    match h
    case InvalidHandler => "invalid"
    case ConnectionLostHandler => "connection_lost"
    case AuthenticatedHandler => "authenticated"
    case PointerEventHandler => "PointerEvent"
    case KeyEventHandler => "KeyEvent"
    case SetEncodingsHandler => "SetEncodings"
    case SetPixelFormatHandler => "SetPixelFormat"
    case FramebufferUpdateRequestHandler => "FramebufferUpdateRequest"
    case ClientCutTextHandler => "ClientCutText"
  }

  /** The method name a handler is looked up under. */
  function HandlerName(h: Handler): string
  {
    "_process_rfb_" + HandlerKind(h)
  }

  /** A packet type with every `-` replaced by `_`. */
  function Underscored(kind: string): (r: string)
    ensures |r| == |kind|
    ensures '-' !in r
    ensures forall i :: 0 <= i < |kind| ==> r[i] == if kind[i] == '-' then '_' else kind[i]
  {
    seq(|kind|, i requires 0 <= i < |kind| => if kind[i] == '-' then '_' else kind[i])
  }

  /** The handler whose method name is `_process_rfb_` followed by the
      underscored packet type, if the server defines one. */
  function LookupHandler(kind: string): (r: Option<Handler>)
    ensures r.Some? ==> HandlerName(r.value) == "_process_rfb_" + Underscored(kind)
  {
    // `_process_rfb_` + u names a handler exactly when u is its packet type.
    var u := Underscored(kind);
    if u == HandlerKind(InvalidHandler) then Some(InvalidHandler)
    else if u == HandlerKind(ConnectionLostHandler) then Some(ConnectionLostHandler)
    else if u == HandlerKind(AuthenticatedHandler) then Some(AuthenticatedHandler)
    else if u == HandlerKind(PointerEventHandler) then Some(PointerEventHandler)
    else if u == HandlerKind(KeyEventHandler) then Some(KeyEventHandler)
    else if u == HandlerKind(SetEncodingsHandler) then Some(SetEncodingsHandler)
    else if u == HandlerKind(SetPixelFormatHandler) then Some(SetPixelFormatHandler)
    else if u == HandlerKind(FramebufferUpdateRequestHandler) then Some(FramebufferUpdateRequestHandler)
    else if u == HandlerKind(ClientCutTextHandler) then Some(ClientCutTextHandler)
    else None
  }

  /** Every handler is reached by its own packet type. */
  lemma EveryHandlerReachable(h: Handler)
    ensures LookupHandler(HandlerKind(h)) == Some(h)
  {
    KindHasNoDash(h);
    NoDashUnchanged(HandlerKind(h));
    match h
    case SetEncodingsHandler =>
      assert HandlerKind(PointerEventHandler)[0] != HandlerKind(SetEncodingsHandler)[0];
    case ClientCutTextHandler =>
      assert HandlerKind(AuthenticatedHandler)[0] != HandlerKind(ClientCutTextHandler)[0];
    case _ =>
  }

  /** A type spelled with `-` where the handler's has `_` reaches the same
      handler: `connection-lost` is handled by `_process_rfb_connection_lost`. */
  lemma DashedTypeReachable()
    ensures LookupHandler("connection-lost") == Some(ConnectionLostHandler)
  {
    assert Underscored("connection-lost") == "connection_lost";
  }

  lemma KindHasNoDash(h: Handler)
    ensures '-' !in HandlerKind(h)
  {
  }

  lemma NoDashUnchanged(s: string)
    requires '-' !in s
    ensures Underscored(s) == s
  {
  }

  /** Replacing `-` by `_` is idempotent, so a packet type and its
      underscored form reach the same handler. */
  lemma UnderscoredTypesDispatchAlike(kind: string)
    ensures Underscored(Underscored(kind)) == Underscored(kind)
    ensures LookupHandler(Underscored(kind)) == LookupHandler(kind)
  {
    var u := Underscored(kind);
    assert Underscored(u) == u;
  }

  /** `_process_rfb_invalid`: the connection is dropped, citing the
      packet's fields. */
  function ProcessInvalid(st: RfbState, proto: Proto, packet: Packet): (r: Step)
    ensures r.state == st
    ensures r.actions == [Disconnect(proto.id, packet.args)]
  {
    Step(st, [Disconnect(proto.id, packet.args)])
  }

  /** `_process_rfb_connection_lost`: handed on to the server's generic
      connection-lost handling. */
  function ProcessConnectionLost(st: RfbState, proto: Proto): (r: Step)
    ensures r.state == st
    ensures r.actions == [ConnectionLost(proto.id)]
  {
    Step(st, [ConnectionLost(proto.id)])
  }

  /** `_process_rfb_authenticated`. Without a single desktop the connection
      is closed. Otherwise the connection is accepted and switched to
      blocking reads; when the sharing policy accepts the client, it is
      registered, its keymap set if the server takes input, the whole
      desktop is damaged, and a shadow server's refresh timers are started. */
  function ProcessAuthenticated(env: Env, st: RfbState, proto: Proto): (r: Step)
    ensures r.state.windows == st.windows && r.state.buttons == st.buttons
    ensures r.state.readonly == st.readonly && r.state.inputDevices == st.inputDevices
    ensures DesktopModelOf(st.windows).None? ==> r == Step(st, [CloseProtocol(proto.id)])
    ensures DesktopModelOf(st.windows).Some? ==>
              |r.actions| >= 2 && r.actions[..2] == [AcceptProtocol(proto.id), BlockingSocket(proto.id)]
    ensures !env.sharingAccepted(proto) || DesktopModelOf(st.windows).None? ==> r.state.sources == st.sources
    ensures DesktopModelOf(st.windows).Some? && !env.sharingAccepted(proto) ==>
              r == Step(st, [AcceptProtocol(proto.id), BlockingSocket(proto.id)])
    ensures env.sharingAccepted(proto) && DesktopModelOf(st.windows).Some? ==>
              && r.state.sources == st.sources[proto.id := Source(proto.share, st.inputDevices)]
              && (SetKeymap(proto.id) in r.actions <==> st.inputDevices)
              && DamageCount(r.actions) == 1
              && RefreshStarts(r.actions) == (if env.hasStartRefresh then Wids(st.windows) else [])
  {
    match DesktopModelOf(st.windows)
    case None => Step(st, [CloseProtocol(proto.id)])
    case Some(m) =>
      var accepted := [AcceptProtocol(proto.id), BlockingSocket(proto.id)];
      if !env.sharingAccepted(proto) then Step(st, accepted)
      else AcceptClient(env, st, proto, m)
  }

  /** The rest of `_process_rfb_authenticated` once sharing is accepted: the
      client is registered, its keymap set when the server takes input, the
      whole desktop damaged once, and every window's refresh timer started
      when the server has `start_refresh`. */
  function AcceptClient(env: Env, st: RfbState, proto: Proto, m: DesktopModel): (r: Step)
    requires DesktopModelOf(st.windows) == Some(m)
    ensures r.state == st.(sources := st.sources[proto.id := Source(proto.share, st.inputDevices)])
    ensures |r.actions| >= 2 && r.actions[..2] == [AcceptProtocol(proto.id), BlockingSocket(proto.id)]
    ensures SetKeymap(proto.id) in r.actions <==> st.inputDevices
    ensures DamageCount(r.actions) == 1
    ensures Damage(st.windows[0].wid, m, 0, 0, m.width, m.height) in r.actions
    ensures forall a :: a in r.actions && a.Damage? ==> a == Damage(st.windows[0].wid, m, 0, 0, m.width, m.height)
    ensures RefreshStarts(r.actions) == (if env.hasStartRefresh then Wids(st.windows) else [])
    ensures forall a :: a in r.actions ==>
              a.AcceptProtocol? || a.BlockingSocket? || a.SetKeymap? || a.Damage? || a.StartRefresh?
  {
    var accepted := [AcceptProtocol(proto.id), BlockingSocket(proto.id)];
    var keymap := if st.inputDevices then [SetKeymap(proto.id)] else [];
    var damage := Damage(st.windows[0].wid, m, 0, 0, m.width, m.height);
    var refresh := if env.hasStartRefresh then StartRefreshAll(st.windows) else [];
    StartRefreshAllCounts(st.windows);
    AcceptedMembers(proto.id, st.inputDevices, damage, refresh);
    AcceptedTail([AcceptProtocol(proto.id), BlockingSocket(proto.id)], keymap, damage, refresh);
    Step(st.(sources := st.sources[proto.id := Source(proto.share, st.inputDevices)]), accepted + keymap + [damage] + refresh)
  }

  /** Which actions the action list of an accepted client holds, whatever
      the damage and however many refresh timers are started. */
  lemma AcceptedMembers(id: nat, keymapped: bool, damage: Action, refresh: seq<Action>)
    requires damage.Damage?
    requires forall a :: a in refresh ==> a.StartRefresh?
    ensures var actions := [AcceptProtocol(id), BlockingSocket(id)] + (if keymapped then [SetKeymap(id)] else []) + [damage] + refresh;
            && |actions| >= 2 && actions[..2] == [AcceptProtocol(id), BlockingSocket(id)]
            && (SetKeymap(id) in actions <==> keymapped)
            && damage in actions
            && (forall a :: a in actions && a.Damage? ==> a == damage)
            && (forall a :: a in actions ==>
                  a.AcceptProtocol? || a.BlockingSocket? || a.SetKeymap? || a.Damage? || a.StartRefresh?)
  {
    var accepted := [AcceptProtocol(id), BlockingSocket(id)];
    var keymap := if keymapped then [SetKeymap(id)] else [];
    var actions := accepted + keymap + [damage] + refresh;
    assert actions[..2] == accepted;
    assert forall a :: a in actions <==> a in accepted || a in keymap || a == damage || a in refresh;
  }

  /** The tail of an accepted client's actions: the damage is the only one,
      and the refreshes started are those of the refresh list. */
  lemma AcceptedTail(accepted: seq<Action>, keymap: seq<Action>, damage: Action, refresh: seq<Action>)
    requires forall a :: a in accepted + keymap ==> !a.Damage? && !a.StartRefresh?
    requires damage.Damage?
    ensures DamageCount(accepted + keymap + [damage] + refresh) == 1 + DamageCount(refresh)
    ensures RefreshStarts(accepted + keymap + [damage] + refresh) == RefreshStarts(refresh)
  {
    var head := accepted + keymap;
    NoDamageNoStart(head);
    DamageCountAppend(head, [damage]);
    DamageCountAppend(head + [damage], refresh);
    RefreshStartsAppend(head, [damage]);
    RefreshStartsAppend(head + [damage], refresh);
    assert [damage][1..] == [];
  }

  lemma {:induction false} NoDamageNoStart(actions: seq<Action>)
    requires forall a :: a in actions ==> !a.Damage? && !a.StartRefresh?
    ensures DamageCount(actions) == 0 && RefreshStarts(actions) == []
    decreases |actions|
  {
    if |actions| > 0 {
      assert actions[0] in actions;
      assert forall a :: a in actions[1..] ==> a in actions;
      NoDamageNoStart(actions[1..]);
    }
  }

  /** The number of Damage actions in a list. */
  function DamageCount(actions: seq<Action>): (r: nat)
    ensures r <= |actions|
    ensures r == 0 <==> forall i :: 0 <= i < |actions| ==> !actions[i].Damage?
    decreases |actions|
  {
    if |actions| == 0 then 0
    else
      var rest := DamageCount(actions[1..]);
      assert forall i :: 1 <= i < |actions| ==> actions[i] == actions[1..][i - 1];
      (if actions[0].Damage? then 1 else 0) + rest
  }

  lemma {:induction false} DamageCountAppend(a: seq<Action>, b: seq<Action>)
    ensures DamageCount(a + b) == DamageCount(a) + DamageCount(b)
    decreases |a|
  {
    if |a| > 0 {
      assert (a + b)[1..] == a[1..] + b;
      DamageCountAppend(a[1..], b);
    } else {
      assert a + b == b;
    }
  }

  /** The windows whose refresh timer a list of actions starts, in order. */
  function RefreshStarts(actions: seq<Action>): (r: seq<nat>)
    ensures forall w :: w in r ==> StartRefresh(w) in actions
    decreases |actions|
  {
    if |actions| == 0 then []
    else if actions[0].StartRefresh? then [actions[0].wid] + RefreshStarts(actions[1..])
    else RefreshStarts(actions[1..])
  }

  lemma {:induction false} RefreshStartsAppend(a: seq<Action>, b: seq<Action>)
    ensures RefreshStarts(a + b) == RefreshStarts(a) + RefreshStarts(b)
    decreases |a|
  {
    if |a| > 0 {
      assert (a + b)[1..] == a[1..] + b;
      RefreshStartsAppend(a[1..], b);
    } else {
      assert a + b == b;
    }
  }

  /** The window ids of a window table, in table order. */
  function Wids(windows: seq<WindowEntry>): (r: seq<nat>)
    ensures |r| == |windows|
    ensures forall i :: 0 <= i < |r| ==> r[i] == windows[i].wid
  {
    seq(|windows|, i requires 0 <= i < |windows| => windows[i].wid)
  }

  /** Starting the refresh of every window damages nothing and starts each
      window's timer once, in table order. */
  lemma StartRefreshAllCounts(windows: seq<WindowEntry>)
    ensures DamageCount(StartRefreshAll(windows)) == 0
    ensures RefreshStarts(StartRefreshAll(windows)) == Wids(windows)
  {
    StartsOfAll(windows);
  }

  lemma StartsOfAll(windows: seq<WindowEntry>)
    ensures RefreshStarts(StartRefreshAll(windows)) == Wids(windows)
  {
    var all := StartRefreshAll(windows);
    StartsOf(all);
    assert forall i :: 0 <= i < |all| ==> RefreshStarts(all)[i] == Wids(windows)[i];
  }

  /** A list made only of timer starts starts exactly its own windows. */
  lemma {:induction false} StartsOf(actions: seq<Action>)
    requires forall i :: 0 <= i < |actions| ==> actions[i].StartRefresh?
    ensures |RefreshStarts(actions)| == |actions|
    ensures forall i :: 0 <= i < |actions| ==> RefreshStarts(actions)[i] == actions[i].wid
    decreases |actions|
  {
    if |actions| > 0 {
      var tail := actions[1..];
      assert forall i :: 0 <= i < |tail| ==> tail[i] == actions[i + 1];
      StartsOf(tail);
      assert RefreshStarts(actions) == [actions[0].wid] + RefreshStarts(tail);
    }
  }

  /** One timer start per window id, in table order. */
  function StartRefreshAll(windows: seq<WindowEntry>): (r: seq<Action>)
    ensures |r| == |windows|
    ensures forall i :: 0 <= i < |r| ==> r[i] == StartRefresh(windows[i].wid)
  {
    seq(|windows|, i requires 0 <= i < |windows| => StartRefresh(windows[i].wid))
  }

  /** An accepted client gets exactly one damage: the whole desktop of the
      window table's one entry, the same size the advertised pixel format
      gives. */
  lemma AuthenticatedDamagesWholeDesktop(env: Env, st: RfbState, proto: Proto)
    requires DesktopModelOf(st.windows).Some? && env.sharingAccepted(proto)
    ensures var r := ProcessAuthenticated(env, st, proto);
            var pf := GetPixelFormat(st.windows).value;
            && DesktopWid(st.windows).Some?
            && Damage(DesktopWid(st.windows).value, DesktopModelOf(st.windows).value, 0, 0, pf.width, pf.height) in r.actions
            && (forall a :: a in r.actions && a.Damage? ==> a.x == 0 && a.y == 0 && a.w == pf.width && a.h == pf.height)
  {
    var m := DesktopModelOf(st.windows).value;
    assert ProcessAuthenticated(env, st, proto) == AcceptClient(env, st, proto, m);
  }

  /** `_process_rfb_PointerEvent`. With input off or a read-only server
      nothing happens. Otherwise the pointer moves to (x, y) on the desktop
      window, then one button action follows for every button whose state
      the packet's mask changes, and the packet's mask is stored. */
  function ProcessPointer(st: RfbState, packet: Packet): (r: Step)
    ensures !st.inputDevices || st.readonly ==> r == Step(st, [])
    ensures st.inputDevices && !st.readonly && !packet.args.PointerArgs? ==>
              r == Step(st, [HandlerFailed(HandlerName(PointerEventHandler))])
    ensures st.inputDevices && !st.readonly && packet.args.PointerArgs? ==>
              var a := packet.args;
              && r.state == st.(buttons := a.buttons)
              && |r.actions| >= 1
              && r.actions[0] == MovePointer(DesktopWid(st.windows), a.x, a.y)
              && (forall i :: 1 <= i < |r.actions| ==>
                    r.actions[i].ButtonAction? && r.actions[i].x == a.x && r.actions[i].y == a.y)
              && (a.buttons == st.buttons ==> |r.actions| == 1)
              && (a.buttons != st.buttons ==> r.actions[1..] == ButtonChanges(st.buttons, a.buttons, a.x, a.y))
  {
    if !st.inputDevices || st.readonly then Step(st, [])
    else match packet.args
      case PointerArgs(buttons, x, y) =>
        var move := [MovePointer(DesktopWid(st.windows), x, y)];
        if buttons != st.buttons then
          Step(st.(buttons := buttons), move + ButtonChanges(st.buttons, buttons, x, y))
        else Step(st, move)
      case _ => Step(st, [HandlerFailed(HandlerName(PointerEventHandler))])
  }

  /** The button actions of an enabled PointerEvent, replayed on the mask
      held before it, give the mask it stores: the server's record of the
      buttons and the buttons it pressed agree. */
  lemma PointerButtonsReplay(st: RfbState, buttons: nat, x: nat, y: nat)
    requires ServerValid(st) && buttons < 256
    requires st.inputDevices && !st.readonly
    ensures var r := ProcessPointer(st, Packet("PointerEvent", PointerArgs(buttons, x, y)));
            && ServerValid(r.state)
            && ApplyButtons(st.buttons, r.actions[1..]) == r.state.buttons == buttons
  {
    var r := ProcessPointer(st, Packet("PointerEvent", PointerArgs(buttons, x, y)));
    if buttons != st.buttons {
      var move := [MovePointer(DesktopWid(st.windows), x, y)];
      assert r.actions[1..] == ButtonChanges(st.buttons, buttons, x, y);
      ButtonChangesReachNewMask(st.buttons, buttons, x, y);
    }
  }

  /** `_process_rfb_KeyEvent`. With input off, a read-only server, an
      unregistered client, an unresolved key name or a zero keycode,
      nothing happens; otherwise one key action goes to the desktop window. */
  function ProcessKey(env: Env, st: RfbState, proto: Proto, packet: Packet): (r: Step)
    ensures r.state == st
    ensures |r.actions| <= 1
    ensures |r.actions| == 1 && r.actions[0].KeyAction? ==>
              && st.inputDevices && !st.readonly && proto.id in st.sources
              && packet.args.KeyArgs?
              && var name := ResolveKeyName(packet.args.key, env.keynames, env.keysymName);
              && name.Some?
              && r.actions[0] == KeyAction(DesktopWid(st.windows), packet.args.pressed != 0, name.value,
                                           env.keycodeOf(name.value, packet.args.pressed),
                                           env.isModifier(env.keycodeOf(name.value, packet.args.pressed)))
              && r.actions[0].keycode != 0
  {
    if !st.inputDevices || st.readonly || proto.id !in st.sources then Step(st, [])
    else match packet.args
      case KeyArgs(pressed, _, _, key) =>
        (match ResolveKeyName(key, env.keynames, env.keysymName)
         case None => Step(st, [])
         case Some(name) =>
           var keycode := env.keycodeOf(name, pressed);
           if keycode != 0 then
             Step(st, [KeyAction(DesktopWid(st.windows), pressed != 0, name, keycode, env.isModifier(keycode))])
           else Step(st, []))
      case _ => Step(st, [HandlerFailed(HandlerName(KeyEventHandler))])
  }

  /** A well-formed KeyEvent is forwarded exactly when input is on, the
      server is writable, the client is registered, the key resolves to a
      name and that name to a non-zero keycode. */
  lemma KeyForwardedIff(env: Env, st: RfbState, proto: Proto, pressed: nat, p1: nat, p2: nat, key: nat)
    ensures var r := ProcessKey(env, st, proto, Packet("KeyEvent", KeyArgs(pressed, p1, p2, key)));
            var name := ResolveKeyName(key, env.keynames, env.keysymName);
            |r.actions| == 1 <==>
              && st.inputDevices && !st.readonly && proto.id in st.sources
              && name.Some? && env.keycodeOf(name.value, pressed) != 0
    ensures var r := ProcessKey(env, st, proto, Packet("KeyEvent", KeyArgs(pressed, p1, p2, key)));
            var name := ResolveKeyName(key, env.keynames, env.keysymName);
            && st.inputDevices && !st.readonly && proto.id in st.sources
            && name.Some? && env.keycodeOf(name.value, pressed) != 0
            ==> r.actions == [KeyAction(DesktopWid(st.windows), pressed != 0, name.value,
                                        env.keycodeOf(name.value, pressed),
                                        env.isModifier(env.keycodeOf(name.value, pressed)))]
  {
  }

  /** A printable keysym outside the name table is forwarded under the
      character itself, whatever the X11 names say. */
  lemma PrintableKeyUsesCharacter(env: Env, st: RfbState, proto: Proto, pressed: nat, key: nat)
    requires st.inputDevices && !st.readonly && proto.id in st.sources
    requires 0 < key < 255 && (key !in env.keynames || env.keynames[key] == [])
    requires env.keycodeOf([key as char], pressed) != 0
    ensures var r := ProcessKey(env, st, proto, Packet("KeyEvent", KeyArgs(pressed, 0, 0, key)));
            |r.actions| == 1 && r.actions[0].KeyAction? && r.actions[0].keyname == [key as char]
  {
  }

  /** `_process_rfb_FramebufferUpdateRequest`: a non-incremental request
      refreshes its rectangle of the desktop model; an incremental one is
      left to the server's damage tracking. */
  function ProcessUpdateRequest(st: RfbState, packet: Packet): (r: Step)
    ensures r.state == st
    ensures packet.args.UpdateRequestArgs? && packet.args.incremental != 0 ==> r.actions == []
    ensures packet.args.UpdateRequestArgs? && packet.args.incremental == 0 ==>
              var a := packet.args;
              r.actions == [Refresh(DesktopModelOf(st.windows), a.x, a.y, a.w, a.h)]
    ensures !packet.args.UpdateRequestArgs? ==>
              r.actions == [HandlerFailed(HandlerName(FramebufferUpdateRequestHandler))]
  {
    match packet.args
    case UpdateRequestArgs(incremental, x, y, w, h) =>
      if incremental == 0 then Step(st, [Refresh(DesktopModelOf(st.windows), x, y, w, h)])
      else Step(st, [])
    case _ => Step(st, [HandlerFailed(HandlerName(FramebufferUpdateRequestHandler))])
  }

  /** `_process_rfb_SetEncodings`, `_process_rfb_SetPixelFormat` and
      `_process_rfb_ClientCutText` only log what they receive. SetEncodings
      and ClientCutText still fail on a packet too short for the fields they
      read; SetPixelFormat reads none. */
  function ProcessLogOnly(st: RfbState, h: Handler, packet: Packet): (r: Step)
    requires h == SetEncodingsHandler || h == SetPixelFormatHandler || h == ClientCutTextHandler
    ensures r.state == st
    ensures h == SetPixelFormatHandler ==> r.actions == []
    ensures h == SetEncodingsHandler ==> (r.actions == [] <==> packet.args.EncodingsArgs?)
    ensures h == ClientCutTextHandler ==> (r.actions == [] <==> packet.args.CutTextArgs?)
    ensures r.actions != [] ==> r.actions == [HandlerFailed(HandlerName(h))]
  {
    match h
    case SetPixelFormatHandler => Step(st, [])
    case SetEncodingsHandler =>
      if packet.args.EncodingsArgs? then Step(st, []) else Step(st, [HandlerFailed(HandlerName(h))])
    case ClientCutTextHandler =>
      if packet.args.CutTextArgs? then Step(st, []) else Step(st, [HandlerFailed(HandlerName(h))])
  }

  /** The handler `h` applied to a packet. */
  function RunHandler(env: Env, st: RfbState, proto: Proto, h: Handler, packet: Packet): (r: Step)
    ensures r.state.windows == st.windows
    ensures r.state.readonly == st.readonly && r.state.inputDevices == st.inputDevices
    ensures r.state.buttons != st.buttons ==> h == PointerEventHandler
    ensures r.state.sources != st.sources ==> h == AuthenticatedHandler
    ensures ServerValid(st) && (packet.args.PointerArgs? ==> packet.args.buttons < 256) ==> ServerValid(r.state)
  {
    match h
    case InvalidHandler => ProcessInvalid(st, proto, packet)
    case ConnectionLostHandler => ProcessConnectionLost(st, proto)
    case AuthenticatedHandler => ProcessAuthenticated(env, st, proto)
    case PointerEventHandler => ProcessPointer(st, packet)
    case KeyEventHandler => ProcessKey(env, st, proto, packet)
    case FramebufferUpdateRequestHandler => ProcessUpdateRequest(st, packet)
    case _ => ProcessLogOnly(st, h, packet)
  }

  /** `process_rfb_packet`: the packet goes to the handler named after its
      type; a type without a handler is dropped. */
  function ProcessPacket(env: Env, st: RfbState, proto: Proto, packet: Packet): (r: Step)
    ensures LookupHandler(packet.kind).None? ==> r == Step(st, [])
    ensures r.state.windows == st.windows
    ensures r.state.readonly == st.readonly && r.state.inputDevices == st.inputDevices
    ensures r.state.buttons != st.buttons ==> LookupHandler(packet.kind) == Some(PointerEventHandler)
    ensures r.state.sources != st.sources ==> LookupHandler(packet.kind) == Some(AuthenticatedHandler)
    ensures ServerValid(st) && (packet.args.PointerArgs? ==> packet.args.buttons < 256) ==> ServerValid(r.state)
    ensures LookupHandler(packet.kind) == Some(InvalidHandler) ==> r == ProcessInvalid(st, proto, packet)
    ensures LookupHandler(packet.kind) == Some(ConnectionLostHandler) ==> r == ProcessConnectionLost(st, proto)
    ensures LookupHandler(packet.kind) == Some(AuthenticatedHandler) ==> r == ProcessAuthenticated(env, st, proto)
    ensures LookupHandler(packet.kind) == Some(PointerEventHandler) ==> r == ProcessPointer(st, packet)
    ensures LookupHandler(packet.kind) == Some(KeyEventHandler) ==> r == ProcessKey(env, st, proto, packet)
    ensures LookupHandler(packet.kind) == Some(FramebufferUpdateRequestHandler) ==> r == ProcessUpdateRequest(st, packet)
    ensures LookupHandler(packet.kind) == Some(SetEncodingsHandler) ==> r == ProcessLogOnly(st, SetEncodingsHandler, packet)
    ensures LookupHandler(packet.kind) == Some(SetPixelFormatHandler) ==> r == ProcessLogOnly(st, SetPixelFormatHandler, packet)
    ensures LookupHandler(packet.kind) == Some(ClientCutTextHandler) ==> r == ProcessLogOnly(st, ClientCutTextHandler, packet)
  {
    match LookupHandler(packet.kind)
    case None => Step(st, [])
    case Some(h) => RunHandler(env, st, proto, h, packet)
  }

  /** A packet whose type is a handler's own name runs that handler on
      its arguments. */
  lemma HandlerTypeRunsHandler(env: Env, st: RfbState, proto: Proto, h: Handler, args: Args)
    ensures ProcessPacket(env, st, proto, Packet(HandlerKind(h), args))
            == RunHandler(env, st, proto, h, Packet(HandlerKind(h), args))
  {
    EveryHandlerReachable(h);
  }

  /** A packet of unknown type never ends the connection. */
  lemma UnknownPacketDropped(env: Env, st: RfbState, proto: Proto, packet: Packet)
    requires LookupHandler(packet.kind).None?
    ensures forall a :: a in ProcessPacket(env, st, proto, packet).actions ==>
              !a.Disconnect? && !a.CloseProtocol? && !a.ConnectionLost?
    ensures ProcessPacket(env, st, proto, packet).state == st
  {
  }

  /** Only an `invalid` packet makes the server drop the connection: no
      input, request or unknown packet ends a session. */
  lemma DisconnectOnlyOnInvalid(env: Env, st: RfbState, proto: Proto, packet: Packet)
    ensures (exists a :: a in ProcessPacket(env, st, proto, packet).actions && a.Disconnect?)
            <==> LookupHandler(packet.kind) == Some(InvalidHandler)
  {
    var r := ProcessPacket(env, st, proto, packet);
    var h := LookupHandler(packet.kind);
    if h == Some(InvalidHandler) {
      assert r.actions[0].Disconnect?;
    } else if h == Some(AuthenticatedHandler) && DesktopModelOf(st.windows).Some? {
      AuthenticatedActions(env, st, proto);
    } else if h.Some? && h != Some(AuthenticatedHandler) {
      NoEndingActions(env, st, proto, h.value, packet);
    }
  }

  /** Only authentication without a single desktop closes the protocol. */
  lemma CloseOnlyWithoutDesktop(env: Env, st: RfbState, proto: Proto, packet: Packet)
    ensures (exists a :: a in ProcessPacket(env, st, proto, packet).actions && a.CloseProtocol?)
            <==> LookupHandler(packet.kind) == Some(AuthenticatedHandler) && DesktopModelOf(st.windows).None?
  {
    var r := ProcessPacket(env, st, proto, packet);
    var h := LookupHandler(packet.kind);
    if h == Some(AuthenticatedHandler) {
      if DesktopModelOf(st.windows).None? {
        assert r.actions[0].CloseProtocol?;
      } else {
        AuthenticatedActions(env, st, proto);
      }
    } else if h.Some? && h != Some(InvalidHandler) {
      NoEndingActions(env, st, proto, h.value, packet);
    }
  }

  /** The handlers other than `invalid` and `authenticated` never end the
      connection. */
  lemma NoEndingActions(env: Env, st: RfbState, proto: Proto, h: Handler, packet: Packet)
    requires h != InvalidHandler && h != AuthenticatedHandler
    ensures forall a :: a in RunHandler(env, st, proto, h, packet).actions ==> !a.Disconnect? && !a.CloseProtocol?
  {
    match h
    case PointerEventHandler => PointerActions(st, packet);
    case KeyEventHandler => KeyActions(env, st, proto, packet);
    case _ =>
  }

  /** A KeyEvent only forwards a key, or fails on a malformed packet. */
  lemma KeyActions(env: Env, st: RfbState, proto: Proto, packet: Packet)
    ensures forall a :: a in ProcessKey(env, st, proto, packet).actions ==> a.KeyAction? || a.HandlerFailed?
  {
  }

  /** A PointerEvent only moves the pointer and presses or releases buttons,
      or fails on a malformed packet. */
  lemma PointerActions(st: RfbState, packet: Packet)
    ensures forall a :: a in ProcessPointer(st, packet).actions ==>
              a.MovePointer? || a.ButtonAction? || a.HandlerFailed?
  {
    var r := ProcessPointer(st, packet);
    forall a | a in r.actions
      ensures a.MovePointer? || a.ButtonAction? || a.HandlerFailed?
    {
      var i :| 0 <= i < |r.actions| && r.actions[i] == a;
      if i > 0 {
        assert a.ButtonAction?;
      }
    }
  }

  /** An authentication with a desktop only accepts, configures and damages. */
  lemma AuthenticatedActions(env: Env, st: RfbState, proto: Proto)
    requires DesktopModelOf(st.windows).Some?
    ensures forall a :: a in ProcessAuthenticated(env, st, proto).actions ==>
              a.AcceptProtocol? || a.BlockingSocket? || a.SetKeymap? || a.Damage? || a.StartRefresh?
  {
  }

  /** The pixel format advertised to clients is the same before and after
      any packet, SetPixelFormat included: no handler touches the window
      table. */
  lemma PixelFormatStable(env: Env, st: RfbState, proto: Proto, packet: Packet)
    ensures var r := ProcessPacket(env, st, proto, packet);
            GetPixelFormat(r.state.windows) == GetPixelFormat(st.windows)
  {
  }

  /** A stream of packets on one connection, handled in order. */
  function ProcessPackets(env: Env, st: RfbState, proto: Proto, packets: seq<Packet>): (r: Step)
    ensures r.state.windows == st.windows
    ensures r.state.readonly == st.readonly && r.state.inputDevices == st.inputDevices
    decreases |packets|
  {
    if |packets| == 0 then Step(st, [])
    else
      var first := ProcessPacket(env, st, proto, packets[0]);
      var rest := ProcessPackets(env, first.state, proto, packets[1..]);
      Step(rest.state, first.actions + rest.actions)
  }

  /** Whether a packet is a PointerEvent the server acts on. */
  predicate IsPointerEvent(p: Packet)
  {
    LookupHandler(p.kind) == Some(PointerEventHandler) && p.args.PointerArgs?
  }

  /** The mask of the last PointerEvent of a stream, if there is one. */
  function LastPointerMask(packets: seq<Packet>): Option<nat>
    decreases |packets|
  {
    if |packets| == 0 then None
    else if IsPointerEvent(packets[|packets| - 1]) then Some(packets[|packets| - 1].args.buttons)
    else LastPointerMask(packets[..|packets| - 1])
  }

  /** On a server that takes input, after a stream of packets the stored
      mask is the mask of the last PointerEvent, or the one held before
      when there was none. */
  lemma {:induction false} StoredMaskIsLastPointerMask(env: Env, st: RfbState, proto: Proto, packets: seq<Packet>)
    requires st.inputDevices && !st.readonly
    ensures LastPointerMask(packets).None? ==> ProcessPackets(env, st, proto, packets).state.buttons == st.buttons
    ensures LastPointerMask(packets).Some? ==>
              ProcessPackets(env, st, proto, packets).state.buttons == LastPointerMask(packets).value
    decreases |packets|
  {
    if |packets| > 0 {
      var n := |packets| - 1;
      var init, p := packets[..n], packets[n];
      assert init + [p] == packets;
      StoredMaskIsLastPointerMask(env, st, proto, init);
      MaskAfterOneMore(env, st, proto, init, p);
      LastPointerMaskStep(init, p);
    }
  }

  /** One more packet is the last PointerEvent exactly when it is one. */
  lemma LastPointerMaskStep(init: seq<Packet>, p: Packet)
    ensures LastPointerMask(init + [p]) == if IsPointerEvent(p) then Some(p.args.buttons) else LastPointerMask(init)
  {
    assert (init + [p])[..|init|] == init;
  }

  /** One more packet stores its mask when it is a PointerEvent and keeps
      the mask otherwise. */
  lemma MaskAfterOneMore(env: Env, st: RfbState, proto: Proto, init: seq<Packet>, p: Packet)
    requires st.inputDevices && !st.readonly
    ensures var before := ProcessPackets(env, st, proto, init).state;
            ProcessPackets(env, st, proto, init + [p]).state.buttons
            == if IsPointerEvent(p) then p.args.buttons else before.buttons
  {
    var before := ProcessPackets(env, st, proto, init);
    ProcessPacketsAppend(env, st, proto, init, p);
    PacketMask(env, before.state, proto, p);
  }

  /** One packet on a server that takes input stores the mask of a
      PointerEvent and keeps the mask otherwise. */
  lemma PacketMask(env: Env, st: RfbState, proto: Proto, p: Packet)
    requires st.inputDevices && !st.readonly
    ensures ProcessPacket(env, st, proto, p).state.buttons == if IsPointerEvent(p) then p.args.buttons else st.buttons
  {
  }

  /** Handling a stream and then one more packet is handling the longer
      stream. */
  lemma {:induction false} ProcessPacketsAppend(env: Env, st: RfbState, proto: Proto, packets: seq<Packet>, p: Packet)
    ensures var r := ProcessPackets(env, st, proto, packets);
            ProcessPackets(env, st, proto, packets + [p]).state == ProcessPacket(env, r.state, proto, p).state
    decreases |packets|
  {
    if |packets| == 0 {
      assert ([] + [p])[1..] == [];
    } else {
      var first := ProcessPacket(env, st, proto, packets[0]);
      assert (packets + [p])[0] == packets[0];
      assert (packets + [p])[1..] == packets[1..] + [p];
      ProcessPacketsAppend(env, first.state, proto, packets[1..], p);
    }
  }

  /** The Refresh actions among `actions`, in order. */
  function Refreshes(actions: seq<Action>): (r: seq<Action>)
    ensures forall a :: a in r ==> a.Refresh? && a in actions
    decreases |actions|
  {
    if |actions| == 0 then []
    else if actions[0].Refresh? then [actions[0]] + Refreshes(actions[1..])
    else Refreshes(actions[1..])
  }

  lemma {:induction false} RefreshesAppend(a: seq<Action>, b: seq<Action>)
    ensures Refreshes(a + b) == Refreshes(a) + Refreshes(b)
    decreases |a|
  {
    if |a| > 0 {
      assert (a + b)[1..] == a[1..] + b;
      RefreshesAppend(a[1..], b);
    } else {
      assert a + b == b;
    }
  }

  lemma {:induction false} NoRefreshes(actions: seq<Action>)
    requires forall a :: a in actions ==> !a.Refresh?
    ensures Refreshes(actions) == []
    decreases |actions|
  {
    if |actions| > 0 {
      assert actions[0] in actions;
      assert forall a :: a in actions[1..] ==> a in actions;
      NoRefreshes(actions[1..]);
    }
  }

  /** The refresh a packet asks for: the desktop model over the packet's
      rectangle for a non-incremental FramebufferUpdateRequest, nothing for
      any other packet. */
  function RequestedRefresh(windows: seq<WindowEntry>, p: Packet): seq<Action>
  {
    if LookupHandler(p.kind) == Some(FramebufferUpdateRequestHandler)
       && p.args.UpdateRequestArgs? && p.args.incremental == 0
    then [Refresh(DesktopModelOf(windows), p.args.x, p.args.y, p.args.w, p.args.h)]
    else []
  }

  /** The refreshes a stream of packets asks for, in packet order. */
  function RequestedRefreshes(windows: seq<WindowEntry>, packets: seq<Packet>): seq<Action>
    decreases |packets|
  {
    if |packets| == 0 then []
    else RequestedRefresh(windows, packets[0]) + RequestedRefreshes(windows, packets[1..])
  }

  /** One handler refreshes exactly what its packet asks for: only a
      non-incremental FramebufferUpdateRequest refreshes, once. */
  lemma HandlerRefreshes(env: Env, st: RfbState, proto: Proto, h: Handler, packet: Packet)
    ensures Refreshes(RunHandler(env, st, proto, h, packet).actions)
         == if h == FramebufferUpdateRequestHandler && packet.args.UpdateRequestArgs? && packet.args.incremental == 0
            then [Refresh(DesktopModelOf(st.windows), packet.args.x, packet.args.y, packet.args.w, packet.args.h)]
            else []
  {
    var r := RunHandler(env, st, proto, h, packet);
    match h
    case FramebufferUpdateRequestHandler =>
      if packet.args.UpdateRequestArgs? && packet.args.incremental == 0 {
        assert Refreshes(r.actions[1..]) == [];
      } else {
        NoRefreshes(r.actions);
      }
    case PointerEventHandler =>
      PointerActions(st, packet);
      NoRefreshes(r.actions);
    case KeyEventHandler =>
      KeyActions(env, st, proto, packet);
      NoRefreshes(r.actions);
    case AuthenticatedHandler =>
      if DesktopModelOf(st.windows).Some? {
        AuthenticatedActions(env, st, proto);
      }
      NoRefreshes(r.actions);
    case _ =>
      NoRefreshes(r.actions);
  }

  /** Over any stream of packets, the server's Refresh actions are exactly
      the rectangles of the non-incremental FramebufferUpdateRequests, in
      packet order, each over the desktop model; nothing else refreshes. */
  lemma {:induction false} RefreshesFollowRequests(env: Env, st: RfbState, proto: Proto, packets: seq<Packet>)
    ensures Refreshes(ProcessPackets(env, st, proto, packets).actions) == RequestedRefreshes(st.windows, packets)
    decreases |packets|
  {
    if |packets| > 0 {
      var first := ProcessPacket(env, st, proto, packets[0]);
      var rest := ProcessPackets(env, first.state, proto, packets[1..]);
      RefreshesAppend(first.actions, rest.actions);
      RefreshesFollowRequests(env, first.state, proto, packets[1..]);
      match LookupHandler(packets[0].kind)
      case None =>
      case Some(h) => HandlerRefreshes(env, st, proto, h, packets[0]);
    }
  }

  /** What `handle_rfb_connection` does with a new connection. */
  datatype Connection<A> =
    | ConnectionClosed
    | TooManyAuthenticators
    | Handshake(auth: Option<A>)

  /** `handle_rfb_connection`: without a single desktop the connection is
      closed at once; otherwise the protocol is built with the one
      authenticator configured for RFB, or none, and more than one is an
      assertion failure. */
  function HandleRfbConnection<A>(windows: seq<WindowEntry>, auths: seq<A>): (r: Connection<A>)
    ensures r.ConnectionClosed? <==> DesktopModelOf(windows).None?
    ensures r.TooManyAuthenticators? <==> DesktopModelOf(windows).Some? && |auths| > 1
    ensures r.Handshake? ==> |auths| <= 1 && (r.auth.Some? <==> |auths| == 1)
    ensures r.Handshake? && r.auth.Some? ==> r.auth.value == auths[0]
  {
    if DesktopModelOf(windows).None? then ConnectionClosed
    else if |auths| > 1 then TooManyAuthenticators
    else if |auths| == 1 then Handshake(Some(auths[0]))
    else Handshake(None)
  }

  /** The desktop check at connection time and the one at authentication
      agree: unless there are too many authenticators, the handshake starts
      exactly when authentication on the same window table accepts the
      protocol rather than closing it. */
  lemma HandshakeIffAccepted<A>(env: Env, st: RfbState, proto: Proto, auths: seq<A>)
    ensures var c := HandleRfbConnection(st.windows, auths);
            var r := ProcessAuthenticated(env, st, proto);
            !c.TooManyAuthenticators? ==>
              && (c.Handshake? <==> AcceptProtocol(proto.id) in r.actions)
              && (c.ConnectionClosed? <==> r.actions == [CloseProtocol(proto.id)])
  {
  }
}

=== FILE: rfb_types.dfy ===
/**
  The values the RFB server handlers work on: the exported desktop models,
  the packets the RFB protocol hands up after parsing the client messages of
  section 7.5 of RFC 6143, and the actions the handlers take.
 */
module RfbTypes {
  import opened Bytes
  import opened Optional

  /** `2**n`: the weight of bit `n` of a mask. */
  function Pow2(n: nat): nat
  {
    if n == 0 then 1 else 2 * Pow2(n - 1)
  }

  /** A window model the server can export, with its current dimensions. */
  datatype DesktopModel = DesktopModel(id: nat, width: nat, height: nat)

  /** One entry of the server's window table: a model and its window id.
      The table is kept in insertion order. */
  datatype WindowEntry = WindowEntry(model: DesktopModel, wid: nat)

  /** The connection a packet arrived on, with the client's shared flag. */
  datatype Proto = Proto(id: nat, share: bool)

  /** A parsed packet: its type name and its fields. */
  datatype Packet = Packet(kind: string, args: Args)

  /** The fields that follow the type name, one shape per client message. */
  datatype Args =
    | NoArgs
    | InvalidArgs(detail: string)
    | PointerArgs(buttons: nat, x: nat, y: nat)
    | KeyArgs(pressed: nat, pad1: nat, pad2: nat, key: nat)
    | EncodingsArgs(pad: nat, count: nat, encodings: seq<int>)
    | PixelFormatArgs(fields: seq<int>)
    | UpdateRequestArgs(incremental: nat, x: nat, y: nat, w: nat, h: nat)
    | CutTextArgs(pad1: nat, pad2: nat, pad3: nat, length: nat, text: bytes)

  /** The side effects the handlers have on the rest of the server. */
  datatype Action =
    | MovePointer(desktop: Option<nat>, x: nat, y: nat)
    | ButtonAction(x: nat, y: nat, button: nat, pressed: bool)
    | KeyAction(desktop: Option<nat>, pressed: bool, keyname: string, keycode: int, isModifier: bool)
    | Refresh(refreshed: Option<DesktopModel>, x: nat, y: nat, w: nat, h: nat)
    | Damage(wid: nat, model: DesktopModel, x: nat, y: nat, w: nat, h: nat)
    | StartRefresh(wid: nat)
    | AcceptProtocol(proto: nat)
    | BlockingSocket(proto: nat)
    | SetKeymap(proto: nat)
    | CloseProtocol(proto: nat)
    | Disconnect(proto: nat, reason: Args)
    | ConnectionLost(proto: nat)
    | HandlerFailed(handler: string)
}

=== FILE: ws_frame.dfy ===
/**
  WebSocket frames as the protocol layer sees them (section 5.2 of RFC 6455),
  the contract the layer relies on from its header codec, and the masking of
  outbound payloads (section 5.3 of RFC 6455).

  The header codec (`encode_hybi_header`, `decode_hybi`) is not part of this
  model: it enters as a pair of function values, and the predicates below
  state what the protocol code assumes of them.
 */
module WsFrame {
  import opened Bytes
  import opened Optional

  const OPCODE_CONTINUE: nat := 0
  const OPCODE_TEXT: nat := 1
  const OPCODE_BINARY: nat := 2
  const OPCODE_CLOSE: nat := 8
  const OPCODE_PING: nat := 9
  const OPCODE_PONG: nat := 10

  /** One decoded frame, as the tuple `(opcode, payload, processed, fin)`
      returned by the decoder: `consumed` is the number of input bytes the
      whole frame (header, mask and payload) occupied. */
  datatype Frame = Frame(opcode: nat, payload: bytes, consumed: nat, fin: bool)

  /** The decoder: the first frame of a buffer, or None when the buffer does
      not yet hold a whole frame. */
  type Decoder = bytes -> Option<Frame>

  /** The header encoder: (opcode, payload length, mask flag) to header bytes.
      A frame is always encoded final. */
  type HeaderEncoder = (nat, nat, bool) -> bytes

  /** A decoded frame is never empty and never longer than the buffer it
      came from; without the first half the read loop would not terminate. */
  ghost predicate DecoderContract(decode: Decoder)
  {
    forall buf :: decode(buf).Some? ==> 0 < decode(buf).value.consumed <= |buf|
  }

  /** Bytes that follow a whole frame do not change how that frame decodes.
      Equivalently: a buffer too short to hold a frame stays too short when
      any of its prefixes is taken. */
  ghost predicate PrefixConsistent(decode: Decoder)
  {
    forall buf, more :: decode(buf).Some? ==> decode(buf + more) == decode(buf)
  }

  /** Masks `data` with the 4-byte key, the first byte of `data` sitting at
      position `offset` of the masked stream. */
  function MaskFrom(key: bytes, data: bytes, offset: nat): (r: bytes)
    requires |key| == 4
    ensures |r| == |data|
  {
    seq(|data|, i requires 0 <= i < |data| => data[i] ^ key[(offset + i) % 4])
  }

  /** `hybi_mask(mask, data)`: the key applied from its first byte on. */
  function ApplyMask(key: bytes, data: bytes): (r: bytes)
    requires |key| == 4
    ensures |r| == |data|
  {
    MaskFrom(key, data, 0)
  }

  /** Masking is its own inverse: the receiver unmasks with the same key. */
  lemma MaskInvolution(key: bytes, data: bytes, offset: nat)
    requires |key| == 4
    ensures MaskFrom(key, MaskFrom(key, data, offset), offset) == data
  {
  }

  /** Masking two pieces separately equals masking them together, provided
      the second piece continues at the position where the first ends. */
  lemma MaskSplit(key: bytes, a: bytes, b: bytes, offset: nat)
    requires |key| == 4
    ensures MaskFrom(key, a + b, offset) == MaskFrom(key, a, offset) + MaskFrom(key, b, offset + |a|)
  {
    var l := MaskFrom(key, a + b, offset);
    var r := MaskFrom(key, a, offset) + MaskFrom(key, b, offset + |a|);
    forall i | 0 <= i < |l|
      ensures l[i] == r[i]
    {
      if i >= |a| {
        assert (offset + i) % 4 == (offset + |a| + (i - |a|)) % 4;
      }
    }
  }

  /** The codec round trip: a header for `payload` followed by the payload
      (masked with the key when the mask flag is set) decodes to one final
      frame with the same opcode and payload, consuming exactly those bytes. */
  ghost predicate CodecRoundTrip(encode: HeaderEncoder, decode: Decoder)
  {
    && (forall op: nat, payload: bytes :: op < 16 ==>
          decode(encode(op, |payload|, false) + payload)
          == Some(Frame(op, payload, |encode(op, |payload|, false)| + |payload|, true)))
    && (forall op: nat, key: bytes, payload: bytes :: op < 16 && |key| == 4 ==>
          decode(encode(op, |payload|, true) + key + ApplyMask(key, payload))
          == Some(Frame(op, payload, |encode(op, |payload|, true)| + 4 + |payload|, true)))
  }

  /** The pong reply to a ping: an unmasked final pong header followed by the
      ping's payload. */
  function PongFrame(payload: bytes, encode: HeaderEncoder): bytes
  {
    encode(OPCODE_PONG, |payload|, false) + payload
  }

  /** A pong reply decodes as one final pong frame carrying exactly the
      ping's payload. */
  lemma PongRoundTrip(payload: bytes, encode: HeaderEncoder, decode: Decoder)
    requires CodecRoundTrip(encode, decode)
    ensures decode(PongFrame(payload, encode)).Some?
    ensures decode(PongFrame(payload, encode)).value.opcode == OPCODE_PONG
    ensures decode(PongFrame(payload, encode)).value.payload == payload
    ensures decode(PongFrame(payload, encode)).value.fin
    ensures decode(PongFrame(payload, encode)).value.consumed == |PongFrame(payload, encode)|
  {
  }

  /** What `make_wsframe_header` hands back: the header bytes (followed by
      the key when masking) and the payload items to send after it. */
  datatype FrameHeader = FrameHeader(header: bytes, items: seq<bytes>)

  /** `make_wsframe_header` as written: one binary frame for all the items,
      and with masking on, every item masked on its own from the first byte
      of the key. `key` stands for the four random bytes drawn per frame. */
  function MakeFrameHeaderAsWritten(items: seq<bytes>, masked: bool, key: bytes, encode: HeaderEncoder): (r: FrameHeader)
    requires |key| == 4
    ensures r.header == encode(OPCODE_BINARY, TotalLength(items), masked) + (if masked then key else [])
    ensures |r.items| == |items|
    ensures TotalLength(r.items) == TotalLength(items)
    ensures masked ==> forall i :: 0 <= i < |items| ==> r.items[i] == ApplyMask(key, items[i])
    ensures !masked ==> r.items == items
  {
    var header := encode(OPCODE_BINARY, TotalLength(items), masked);
    if masked then FrameHeader(header + key, MaskEachItem(key, items)) else FrameHeader(header, items)
  }

  /** Every item masked from the first byte of the key. */
  function MaskEachItem(key: bytes, items: seq<bytes>): (r: seq<bytes>)
    requires |key| == 4
    ensures |r| == |items|
    ensures TotalLength(r) == TotalLength(items)
    ensures forall i :: 0 <= i < |items| ==> r[i] == ApplyMask(key, items[i])
  {
    if |items| == 0 then []
    else MaskEachItem(key, items[..|items| - 1]) + [ApplyMask(key, items[|items| - 1])]
  }

  /** Every item masked at the position it occupies in the joined payload. */
  function MaskItems(key: bytes, items: seq<bytes>): (r: seq<bytes>)
    requires |key| == 4
    ensures |r| == |items|
    ensures Join(r) == ApplyMask(key, Join(items))
  {
    if |items| == 0 then []
    else
      var init := items[..|items| - 1];
      var last := items[|items| - 1];
      var r := MaskItems(key, init) + [MaskFrom(key, last, TotalLength(init))];
      assert r[..|r| - 1] == MaskItems(key, init);
      MaskSplit(key, Join(init), last, 0);
      r
  }

  /** `make_wsframe_header` with the key applied across the joined payload,
      as section 5.3 of RFC 6455 masks one frame payload. */
  function MakeFrameHeader(items: seq<bytes>, masked: bool, key: bytes, encode: HeaderEncoder): (r: FrameHeader)
    requires |key| == 4
    ensures |r.items| == |items|
    ensures masked ==> Join(r.items) == ApplyMask(key, Join(items))
    ensures !masked ==> r.items == items
  {
    var header := encode(OPCODE_BINARY, TotalLength(items), masked);
    if masked then FrameHeader(header + key, MaskItems(key, items)) else FrameHeader(header, items)
  }

  /** The frame built from a list of items reaches the receiver as one final
      binary frame whose payload is the items joined, masked or not. */
  lemma FrameRoundTrip(items: seq<bytes>, masked: bool, key: bytes, encode: HeaderEncoder, decode: Decoder)
    requires |key| == 4
    requires CodecRoundTrip(encode, decode)
    ensures var h := MakeFrameHeader(items, masked, key, encode);
            var frame := decode(h.header + Join(h.items));
            && frame.Some?
            && frame.value.opcode == OPCODE_BINARY
            && frame.value.payload == Join(items)
            && frame.value.fin
            && frame.value.consumed == |h.header| + TotalLength(items)
  {
    var h := MakeFrameHeader(items, masked, key, encode);
    var payload := Join(items);
    if masked {
      var header := encode(OPCODE_BINARY, |payload|, true);
      assert h.header + Join(h.items) == header + key + ApplyMask(key, payload);
    } else {
      assert h.header + Join(h.items) == encode(OPCODE_BINARY, |payload|, false) + payload;
    }
  }

  /** When every item but the last spans a whole number of key lengths, the
      per-item masking as written coincides with masking the joined payload. */
  lemma {:induction false} AlignedItemsMaskAlike(key: bytes, items: seq<bytes>)
    requires |key| == 4
    requires forall i :: 0 <= i < |items| - 1 ==> |items[i]| % 4 == 0
    ensures MaskEachItem(key, items) == MaskItems(key, items)
  {
    if |items| > 0 {
      var init := items[..|items| - 1];
      var last := items[|items| - 1];
      AlignedItemsMaskAlike(key, init);
      AlignedPrefixLength(init);
      AlignedOffsetMask(key, last, TotalLength(init));
    }
  }

  lemma AlignedOffsetMask(key: bytes, data: bytes, offset: nat)
    requires |key| == 4
    requires offset % 4 == 0
    ensures MaskFrom(key, data, offset) == ApplyMask(key, data)
  {
    var k := offset / 4;
    assert offset == 4 * k;
    forall i | 0 <= i < |data|
      ensures (offset + i) % 4 == i % 4
    {
      assert offset + i == 4 * k + i;
    }
  }

  lemma {:induction false} AlignedPrefixLength(items: seq<bytes>)
    requires forall i :: 0 <= i < |items| ==> |items[i]| % 4 == 0
    ensures TotalLength(items) % 4 == 0
  {
    if |items| > 0 {
      AlignedPrefixLength(items[..|items| - 1]);
    }
  }

  /** The as-written masking of two one-byte items does not produce what
      the receiver unmasks: it reads back `[0, 3]` where `[0, 0]` was sent. */
  lemma UnalignedItemsMisdelivered(encode: HeaderEncoder, decode: Decoder)
    requires CodecRoundTrip(encode, decode)
    ensures var items: seq<bytes> := [[0], [0]];
            var h := MakeFrameHeaderAsWritten(items, true, [1, 2, 3, 4], encode);
            var frame := decode(h.header + Join(h.items));
            && frame.Some?
            && frame.value.payload == [0, 3]
            && frame.value.payload != Join(items)
  {
    var key: bytes := [1, 2, 3, 4];
    var sent: bytes := [0, 3];
    var h := MakeFrameHeaderAsWritten([[0], [0]], true, key, encode);
    TwoZerosAsWritten(encode);
    JoinTwoBytes(1, 1);
    JoinTwoBytes(0, 0);
    ZeroThreeMasked();
    assert h.header + Join(h.items) == encode(OPCODE_BINARY, |sent|, true) + key + ApplyMask(key, sent);
    MaskedRoundTrip(encode, decode, OPCODE_BINARY, key, sent);
  }

  /** The header and items built as written for two one-byte zero items:
      masked on their own, both become 1. */
  lemma TwoZerosAsWritten(encode: HeaderEncoder)
    ensures MakeFrameHeaderAsWritten([[0], [0]], true, [1, 2, 3, 4], encode)
            == FrameHeader(encode(OPCODE_BINARY, 2, true) + [1, 2, 3, 4], [[1], [1]])
  {
    var key: bytes := [1, 2, 3, 4];
    var items: seq<bytes> := [[0], [0]];
    assert items[..1] == [[0]];
    assert [[0]][..0] == [];
    assert ApplyMask(key, [0]) == [1];
    assert TotalLength(items) == 2;
  }

  /** What the receiver unmasks from the joined bytes 1 1. */
  lemma ZeroThreeMasked()
    ensures ApplyMask([1, 2, 3, 4], [0, 3]) == [1, 1]
  {
  }

  /** The masked half of the codec round trip, for one payload. */
  lemma MaskedRoundTrip(encode: HeaderEncoder, decode: Decoder, op: nat, key: bytes, payload: bytes)
    requires CodecRoundTrip(encode, decode)
    requires op < 16 && |key| == 4
    ensures decode(encode(op, |payload|, true) + key + ApplyMask(key, payload))
            == Some(Frame(op, payload, |encode(op, |payload|, true)| + 4 + |payload|, true))
  {
  }

  lemma JoinTwoBytes(a: byte, b: byte)
    ensures Join([[a], [b]]) == [a, b]
  {
    assert [[a], [b]][..1] == [[a]];
    assert [[a]][..0] == [];
  }
}

=== FILE: ws_protocol.dfy ===
/**
  The read side of `WebSocketProtocol`: `parse_ws_frame` takes the bytes
  of one read, decodes as many whole frames as they hold, reassembles
  fragmented messages (section 5.4 of RFC 6455) and answers control frames
  (sections 5.5.1 to 5.5.3 of RFC 6455).

  Its rules are stricter than the RFC's: while a fragmented message is
  pending, every frame that is not a continuation is an error, even a ping.

  Effects leave the state machine as actions: a payload handed to the layer
  above, a frame written back under the write lock, or a lost connection.
  An exception raised by the source becomes an outcome carrying an error.
 */
module WsProtocol {
  import opened Bytes
  import opened Optional
  import opened WsFrame

  /** Per-connection state:
      - `data`: bytes saved from earlier reads that did not hold a whole frame;
      - `fragments`: the payloads of the frames of an unfinished message;
      - `pendingOpcode`: the opcode of that message, 0 when there is none;
      - `closed`: set once the protocol is closed. */
  datatype WsState = WsState(data: bytes, fragments: seq<bytes>, pendingOpcode: nat, closed: bool)

  /** The state of a freshly created protocol. */
  const Initial := WsState([], [], 0, false)

  /** What a close frame says about why the peer went away. */
  datatype CloseReason = UnknownReason | Coded(code: nat, reason: bytes)

  datatype WsAction =
    | Deliver(payload: bytes)
    | Write(frame: bytes)
    | ConnectionLost(reason: CloseReason)

  /** The result of processing: the new state, the actions taken in order,
      and the message of the exception that ended processing, if any. */
  datatype Outcome = Outcome(state: WsState, actions: seq<WsAction>, error: Option<string>)

  /** The invariant every step keeps: only text and binary messages are
      ever pending; a closed protocol holds neither saved bytes nor
      fragments; and while open, fragments are held exactly when an opcode
      is pending. (`close` drops the fragments but not the pending opcode,
      hence the last clause is stated for open protocols.) */
  ghost predicate Valid(st: WsState)
  {
    && (st.pendingOpcode == 0 || st.pendingOpcode == OPCODE_TEXT || st.pendingOpcode == OPCODE_BINARY)
    && (st.closed ==> st.data == [] && st.fragments == [])
    && (!st.closed ==> (|st.fragments| > 0 <==> st.pendingOpcode != 0))
  }

  lemma InitialValid()
    ensures Valid(Initial)
  {
  }

  /** `close`: the protocol is closed, and the saved bytes and the collected
      fragments are dropped, so a half-received message is never delivered. */
  function Close(st: WsState): (r: WsState)
    ensures Valid(st) ==> Valid(r)
    ensures r.closed && r.data == [] && r.fragments == []
  {
    st.(closed := true, data := [], fragments := [])
  }

  /** The reason carried by a close frame: none when the payload is shorter
      than two bytes, otherwise the big-endian code in the first two bytes
      followed by the reason bytes. */
  function ParseCloseReason(payload: bytes): (r: CloseReason)
    ensures r.UnknownReason? <==> |payload| < 2
    ensures r.Coded? ==> r.code < 65536
    ensures |payload| >= 2 ==> r == Coded(Be16(payload[0], payload[1]), payload[2..])
  {
    if |payload| < 2 then UnknownReason
    else
      Be16Bound(payload[0], payload[1]);
      Coded(Be16(payload[0], payload[1]), payload[2..])
  }

  /** Any two bytes followed by any reason read back as the code of those two
      bytes and that reason; distinct code bytes give distinct codes. */
  lemma CloseReasonRoundTrip(hi: byte, lo: byte, reason: bytes)
    ensures ParseCloseReason([hi, lo] + reason) == Coded(Be16(hi, lo), reason)
  {
    assert ([hi, lo] + reason)[2..] == reason;
  }

  /** The close frame `b"\x03\xe8bye"` carries code 1000 and reason "bye". */
  lemma CloseReasonExample()
    ensures ParseCloseReason([0x03, 0xe8, 0x62, 0x79, 0x65]) == Coded(1000, [0x62, 0x79, 0x65])
  {
    CloseReasonRoundTrip(0x03, 0xe8, [0x62, 0x79, 0x65]);
  }

  /** Acts on one whole message: text and binary payloads go upward as they
      are, a close frame loses the connection, a ping is answered with a
      pong carrying the same payload, and a pong or an unknown opcode is only
      logged. */
  function Dispatch(st: WsState, opcode: nat, payload: bytes, encode: HeaderEncoder): (r: Outcome)
    ensures r.error.None?
    ensures opcode == OPCODE_BINARY || opcode == OPCODE_TEXT <==> r.actions == [Deliver(payload)]
    ensures opcode != OPCODE_BINARY && opcode != OPCODE_TEXT ==> forall a :: a in r.actions ==> !a.Deliver?
    ensures opcode == OPCODE_PING ==> r.state == st && r.actions == [Write(PongFrame(payload, encode))]
    ensures opcode == OPCODE_CLOSE ==> r == ProcessClose(st, payload)
    ensures opcode !in {OPCODE_TEXT, OPCODE_BINARY, OPCODE_CLOSE, OPCODE_PING} ==> r == Outcome(st, [], None)
    ensures r.state.closed <==> st.closed || opcode == OPCODE_CLOSE
    ensures opcode != OPCODE_CLOSE ==> r.state == st
    ensures Valid(st) ==> Valid(r.state)
  {
    if opcode == OPCODE_BINARY || opcode == OPCODE_TEXT then
      Outcome(st, [Deliver(payload)], None)
    else if opcode == OPCODE_CLOSE then
      ProcessClose(st, payload)
    else if opcode == OPCODE_PING then
      ProcessPing(st, payload, encode)
    else
      Outcome(st, [], None)
  }

  /** `_process_ws_close`: the connection is lost, citing the frame's reason,
      and the protocol is closed. */
  function ProcessClose(st: WsState, payload: bytes): (r: Outcome)
    ensures r.error.None? && r.state == Close(st)
    ensures r.actions == [ConnectionLost(ParseCloseReason(payload))]
    ensures r.actions[0].reason.UnknownReason? <==> |payload| < 2
  {
    Outcome(Close(st), [ConnectionLost(ParseCloseReason(payload))], None)
  }

  /** A UTF-8 decoder: the text the bytes encode, or None when they are not
      valid UTF-8. */
  type Utf8Decoder = bytes -> Option<string>

  /** The byte 0xff never occurs in UTF-8 (section 1 of RFC 3629), so a
      decoder must refuse any byte string that holds it. */
  ghost predicate RejectsFF(utf8: Utf8Decoder)
  {
    forall bs: bytes :: 0xff in bs ==> utf8(bs).None?
  }

  /** `_process_ws_close` as written: when the reason bytes are not valid
      UTF-8, the handler reads a variable that was never assigned, so it
      raises before it reports the lost connection. */
  function ProcessCloseAsWritten(st: WsState, payload: bytes, utf8: Utf8Decoder): (r: Outcome)
    ensures r.error.None? ==> r == ProcessClose(st, payload)
  {
    if |payload| < 2 then Outcome(Close(st), [ConnectionLost(UnknownReason)], None)
    else if utf8(payload[2..]).None? then
      Outcome(st, [], Some("local variable 'reason' referenced before assignment"))
    else
      Be16Bound(payload[0], payload[1]);
      Outcome(Close(st), [ConnectionLost(Coded(Be16(payload[0], payload[1]), payload[2..]))], None)
  }

  /** The close frame `b"\x03\xe8\xff"` makes the handler as written raise
      instead of tearing the connection down, while the model's handler
      reports code 1000 and closes. */
  lemma CloseWithInvalidReasonRaises(st: WsState, utf8: Utf8Decoder)
    requires RejectsFF(utf8)
    requires !st.closed
    ensures var payload: bytes := [0x03, 0xe8, 0xff];
            var asWritten := ProcessCloseAsWritten(st, payload, utf8);
            && asWritten.error.Some?
            && asWritten.actions == []
            && !asWritten.state.closed
            && ProcessClose(st, payload).actions == [ConnectionLost(Coded(1000, [0xff]))]
            && ProcessClose(st, payload).state.closed
  {
    var payload: bytes := [0x03, 0xe8, 0xff];
    assert payload[2..] == [0xff];
    assert 0xff in payload[2..];
  }

  /** Whenever the handler as written does not raise, it does exactly what the
      model's handler does: the correction only changes the failing path. */
  lemma CloseCorrectionAgrees(st: WsState, payload: bytes, utf8: Utf8Decoder)
    requires |payload| < 2 || utf8(payload[2..]).Some?
    ensures ProcessCloseAsWritten(st, payload, utf8) == ProcessClose(st, payload)
  {
  }

  /** `_process_ws_ping`: exactly one pong frame is written back. */
  function ProcessPing(st: WsState, payload: bytes, encode: HeaderEncoder): (r: Outcome)
    ensures r.error.None? && r.state == st
    ensures |r.actions| == 1 && r.actions[0].Write?
    ensures |payload| <= |r.actions[0].frame| && r.actions[0].frame[|r.actions[0].frame| - |payload|..] == payload
  {
    Outcome(st, [Write(PongFrame(payload, encode))], None)
  }

  /** The body of the read loop for one decoded frame. */
  function ProcessFrame(st: WsState, f: Frame, encode: HeaderEncoder): (r: Outcome)
    ensures r.error.Some? <==>
      || (f.opcode == OPCODE_CONTINUE && (st.pendingOpcode == 0 || |st.fragments| == 0))
      || (f.opcode != OPCODE_CONTINUE && st.pendingOpcode != 0 && |st.fragments| > 0)
      || (f.opcode != OPCODE_CONTINUE && !f.fin && f.opcode != OPCODE_BINARY && f.opcode != OPCODE_TEXT)
    ensures r.error.Some? ==> r.state == st && r.actions == []
    ensures !f.fin ==> r.actions == []
    ensures st.data == [] ==> r.state.data == []
    ensures st.closed ==> r.state.closed
    ensures Valid(st) && !st.closed ==> Valid(r.state)
    ensures f.opcode != OPCODE_CONTINUE && f.fin && !(st.pendingOpcode != 0 && |st.fragments| > 0) ==>
              r == Dispatch(st, f.opcode, f.payload, encode)
  {
    if f.opcode == OPCODE_CONTINUE then
      if st.pendingOpcode == 0 || |st.fragments| == 0 then
        Outcome(st, [], Some("continuation frame does not follow a partial frame"))
      else
        var chunks := st.fragments + [f.payload];
        if !f.fin then
          Outcome(st.(fragments := chunks), [], None)
        else
          Dispatch(st.(fragments := [], pendingOpcode := 0), st.pendingOpcode, Join(chunks), encode)
    else if |st.fragments| > 0 && st.pendingOpcode != 0 then
      Outcome(st, [], Some("expected a continuation frame"))
    else if !f.fin then
      if f.opcode != OPCODE_BINARY && f.opcode != OPCODE_TEXT then
        Outcome(st, [], Some("cannot handle fragmented frames"))
      else
        Outcome(st.(pendingOpcode := f.opcode, fragments := st.fragments + [f.payload]), [], None)
    else
      Dispatch(st, f.opcode, f.payload, encode)
  }

  /** A non-final text or binary frame with nothing pending starts a message:
      it records its opcode and payload and delivers nothing. */
  lemma FragmentStart(st: WsState, f: Frame, encode: HeaderEncoder)
    requires Valid(st) && !st.closed && st.pendingOpcode == 0
    requires f.opcode == OPCODE_BINARY || f.opcode == OPCODE_TEXT
    requires !f.fin
    ensures var r := ProcessFrame(st, f, encode);
            r.error.None? && r.actions == [] && r.state.pendingOpcode == f.opcode && r.state.fragments == [f.payload]
  {
  }

  /** A final continuation frame completes the pending message: the chunks,
      its own last, are joined in arrival order and dispatched under the
      message's opcode, and the accumulator is empty afterwards. */
  lemma FinalContinuation(st: WsState, f: Frame, encode: HeaderEncoder)
    requires Valid(st) && !st.closed && st.pendingOpcode != 0
    requires f.opcode == OPCODE_CONTINUE && f.fin
    ensures var r := ProcessFrame(st, f, encode);
            && r.error.None?
            && r.actions == [Deliver(Join(st.fragments + [f.payload]))]
            && r.state == st.(fragments := [], pendingOpcode := 0)
  {
  }

  /** Sequential processing of already-decoded frames, stopping at the first
      error or once the protocol is closed. */
  function ApplyFrames(st: WsState, frames: seq<Frame>, encode: HeaderEncoder): (r: Outcome)
    ensures st.data == [] ==> r.state.data == []
    ensures Valid(st) ==> Valid(r.state)
    ensures st.closed ==> r == Outcome(st, [], None)
    decreases |frames|
  {
    if |frames| == 0 || st.closed then Outcome(st, [], None)
    else
      var o := ProcessFrame(st, frames[0], encode);
      if o.error.Some? then o
      else
        var rest := ApplyFrames(o.state, frames[1..], encode);
        Outcome(rest.state, o.actions + rest.actions, rest.error)
  }

  /** The payloads of a list of frames, in order. */
  function Payloads(frames: seq<Frame>): (r: seq<bytes>)
    ensures |r| == |frames|
    ensures forall i :: 0 <= i < |frames| ==> r[i] == frames[i].payload
  {
    seq(|frames|, i requires 0 <= i < |frames| => frames[i].payload)
  }

  /** Continuation frames, every one but the last not final. */
  ghost predicate ContinuationRun(frames: seq<Frame>)
  {
    && |frames| > 0
    && (forall i :: 0 <= i < |frames| ==> frames[i].opcode == OPCODE_CONTINUE)
    && (forall i :: 0 <= i < |frames| - 1 ==> !frames[i].fin)
    && frames[|frames| - 1].fin
  }

  /** A run of continuations completes the pending message with all chunks
      joined in arrival order. */
  lemma {:induction false} ContinuationsComplete(st: WsState, frames: seq<Frame>, encode: HeaderEncoder)
    requires !st.closed && |st.fragments| > 0
    requires st.pendingOpcode == OPCODE_BINARY || st.pendingOpcode == OPCODE_TEXT
    requires ContinuationRun(frames)
    ensures ApplyFrames(st, frames, encode)
         == Outcome(st.(fragments := [], pendingOpcode := 0),
                    [Deliver(Join(st.fragments + Payloads(frames)))], None)
    decreases |frames|
  {
    if |frames| == 1 {
      LastContinuation(st, frames, encode);
    } else {
      var st' := st.(fragments := st.fragments + [frames[0].payload]);
      MiddleContinuation(st, frames, encode);
      ContinuationsComplete(st', frames[1..], encode);
      ChunksRegroup(st.fragments, frames);
    }
  }

  /** The chunks collected so far plus the rest of the run are the chunks
      before the run plus the whole run. */
  lemma ChunksRegroup(fragments: seq<bytes>, frames: seq<Frame>)
    requires |frames| > 0
    ensures (fragments + [frames[0].payload]) + Payloads(frames[1..]) == fragments + Payloads(frames)
    ensures [frames[0].payload] + Payloads(frames[1..]) == Payloads(frames)
  {
    assert Payloads(frames) == [frames[0].payload] + Payloads(frames[1..]);
  }

  lemma LastContinuation(st: WsState, frames: seq<Frame>, encode: HeaderEncoder)
    requires !st.closed && |st.fragments| > 0
    requires st.pendingOpcode == OPCODE_BINARY || st.pendingOpcode == OPCODE_TEXT
    requires ContinuationRun(frames) && |frames| == 1
    ensures ApplyFrames(st, frames, encode)
         == Outcome(st.(fragments := [], pendingOpcode := 0),
                    [Deliver(Join(st.fragments + Payloads(frames)))], None)
  {
    var f := frames[0];
    var reset := st.(fragments := [], pendingOpcode := 0);
    var whole := Join(st.fragments + [f.payload]);
    assert ProcessFrame(st, f, encode) == Outcome(reset, [Deliver(whole)], None);
    assert ApplyFrames(reset, frames[1..], encode) == Outcome(reset, [], None);
    assert Payloads(frames) == [f.payload];
  }

  lemma MiddleContinuation(st: WsState, frames: seq<Frame>, encode: HeaderEncoder)
    requires !st.closed && |st.fragments| > 0
    requires st.pendingOpcode == OPCODE_BINARY || st.pendingOpcode == OPCODE_TEXT
    requires ContinuationRun(frames) && |frames| > 1
    ensures ContinuationRun(frames[1..])
    ensures ApplyFrames(st, frames, encode)
         == ApplyFrames(st.(fragments := st.fragments + [frames[0].payload]), frames[1..], encode)
  {
    var f := frames[0];
    var st' := st.(fragments := st.fragments + [f.payload]);
    assert ProcessFrame(st, f, encode) == Outcome(st', [], None);
    var rest := frames[1..];
    assert forall i :: 0 <= i < |rest| ==> rest[i] == frames[i + 1];
    var tail := ApplyFrames(st', rest, encode);
    assert [] + tail.actions == tail.actions;
  }

  /** A message sent as a non-final text or binary frame followed by a run
      of continuations is delivered upward once, as the concatenation of all
      the chunks in arrival order, and the accumulator is left empty. */
  lemma FragmentedMessageDelivered(st: WsState, frames: seq<Frame>, encode: HeaderEncoder)
    requires Valid(st) && !st.closed && st.pendingOpcode == 0
    requires |frames| >= 2
    requires frames[0].opcode == OPCODE_BINARY || frames[0].opcode == OPCODE_TEXT
    requires !frames[0].fin
    requires ContinuationRun(frames[1..])
    ensures ApplyFrames(st, frames, encode)
         == Outcome(st, [Deliver(Join(Payloads(frames)))], None)
  {
    var st' := st.(pendingOpcode := frames[0].opcode, fragments := [frames[0].payload]);
    StartThenContinue(st, frames, encode);
    ContinuationsComplete(st', frames[1..], encode);
    ChunksRegroup([], frames);
    assert st.fragments == [];
  }

  lemma StartThenContinue(st: WsState, frames: seq<Frame>, encode: HeaderEncoder)
    requires Valid(st) && !st.closed && st.pendingOpcode == 0
    requires |frames| >= 1
    requires frames[0].opcode == OPCODE_BINARY || frames[0].opcode == OPCODE_TEXT
    requires !frames[0].fin
    ensures ApplyFrames(st, frames, encode)
         == ApplyFrames(st.(pendingOpcode := frames[0].opcode, fragments := [frames[0].payload]), frames[1..], encode)
  {
    var st' := st.(pendingOpcode := frames[0].opcode, fragments := [frames[0].payload]);
    assert ProcessFrame(st, frames[0], encode) == Outcome(st', [], None);
    var tail := ApplyFrames(st', frames[1..], encode);
    assert [] + tail.actions == tail.actions;
  }

  /** How a decoder splits a buffer: the whole frames it finds one after
      the other, and the bytes left over that do not hold a whole frame. */
  datatype Split = Split(frames: seq<Frame>, rest: bytes)

  function DecodeAll(decode: Decoder, data: bytes): (r: Split)
    requires DecoderContract(decode)
    ensures |r.frames| > 0 <==> decode(data).Some? && |data| > 0
    ensures |r.frames| > 0 ==> r.frames[0] == decode(data).value
    ensures |r.rest| <= |data| && r.rest == data[|data| - |r.rest|..]
    ensures r.rest != [] ==> decode(r.rest).None?
    decreases |data|
  {
    if |data| == 0 then Split([], [])
    else match decode(data)
      case None => Split([], data)
      case Some(f) =>
        var tail := data[f.consumed..];
        var s := DecodeAll(decode, tail);
        assert tail[|tail| - |s.rest|..] == data[|data| - |s.rest|..];
        Split([f] + s.frames, s.rest)
  }

  /** The read loop over a buffer: decode a frame, process it, go on with
      the bytes after it, until the buffer is empty, the protocol is closed,
      a frame raises an error, or the decoder needs more bytes (which are then
      saved for the next read). `st.data` has already been taken out. */
  function ProcessFrames(st: WsState, data: bytes, decode: Decoder, encode: HeaderEncoder): (r: Outcome)
    requires DecoderContract(decode)
    ensures st.data == [] && (r.state.closed || r.error.Some?) ==> r.state.data == []
    ensures st.data == [] ==> r.state.data == [] || r.state.data == DecodeAll(decode, data).rest
    ensures st.data == [] && r.error.None? && !r.state.closed ==> r.state.data == DecodeAll(decode, data).rest
    ensures Valid(st) && st.data == [] ==> Valid(r.state)
    decreases |data|
  {
    if |data| == 0 || st.closed then Outcome(st, [], None)
    else match decode(data)
      case None => Outcome(st.(data := data), [], None)
      case Some(f) =>
        var o := ProcessFrame(st, f, encode);
        if o.error.Some? then o
        else
          var rest := ProcessFrames(o.state, data[f.consumed..], decode, encode);
          Outcome(rest.state, o.actions + rest.actions, rest.error)
  }

  /** `parse_ws_frame`: an empty read is passed upward as it is; otherwise
      the saved bytes and the new ones are run through the read loop. */
  function ParseWsFrame(st: WsState, buf: bytes, decode: Decoder, encode: HeaderEncoder): (r: Outcome)
    requires DecoderContract(decode)
    ensures |buf| == 0 ==> r == Outcome(st, [Deliver([])], None)
    ensures |buf| > 0 && !st.closed && decode(st.data + buf).None? ==>
              r == Outcome(st.(data := st.data + buf), [], None)
    ensures |buf| > 0 && st.closed ==> r == Outcome(st.(data := []), [], None)
    ensures Valid(st) ==> Valid(r.state)
  {
    if |buf| == 0 then Outcome(st, [Deliver([])], None)
    else ProcessFrames(st.(data := []), st.data + buf, decode, encode)
  }

  /** Resumes the frame-level outcome with the bytes the decoder left over,
      which the read loop saves unless it stopped early. */
  function SaveRest(o: Outcome, rest: bytes): Outcome
  {
    if o.error.None? && !o.state.closed && rest != [] then o.(state := o.state.(data := rest)) else o
  }

  /** The byte-level read loop is the frame-level fold over the frames the
      decoder finds, followed by saving the bytes it could not decode. */
  lemma {:induction false} ReadLoopIsFrameFold(st: WsState, data: bytes, decode: Decoder, encode: HeaderEncoder)
    requires DecoderContract(decode)
    requires st.data == []
    ensures ProcessFrames(st, data, decode, encode)
         == SaveRest(ApplyFrames(st, DecodeAll(decode, data).frames, encode), DecodeAll(decode, data).rest)
    decreases |data|
  {
    var split := DecodeAll(decode, data);
    if |data| == 0 || st.closed {
    } else {
      match decode(data)
      case None =>
      case Some(f) =>
        var o := ProcessFrame(st, f, encode);
        assert split.frames[0] == f && split.frames[1..] == DecodeAll(decode, data[f.consumed..]).frames;
        if o.error.None? {
          ReadLoopIsFrameFold(o.state, data[f.consumed..], decode, encode);
        }
    }
  }

  /** A fragmented message read in one go: a binary frame
      "AB" and continuations "CD" and "EF" (the last final) are delivered
      upward as the single payload "ABCDEF". */
  lemma FragmentedExample(data: bytes, decode: Decoder, encode: HeaderEncoder)
    requires DecoderContract(decode)
    requires DecodeAll(decode, data).rest == []
    requires var fs := DecodeAll(decode, data).frames;
             && |fs| == 3
             && fs[0].opcode == OPCODE_BINARY && fs[0].payload == [0x41, 0x42] && !fs[0].fin
             && fs[1].opcode == OPCODE_CONTINUE && fs[1].payload == [0x43, 0x44] && !fs[1].fin
             && fs[2].opcode == OPCODE_CONTINUE && fs[2].payload == [0x45, 0x46] && fs[2].fin
    ensures ParseWsFrame(Initial, data, decode, encode)
         == Outcome(Initial, [Deliver([0x41, 0x42, 0x43, 0x44, 0x45, 0x46])], None)
  {
    var fs := DecodeAll(decode, data).frames;
    ReadWithNothingSaved(Initial, data, decode, encode);
    ReadLoopIsFrameFold(Initial, data, decode, encode);
    ThreeFrameMessage(fs);
    FragmentedMessageDelivered(Initial, fs, encode);
  }

  /** With nothing saved, a non-empty read runs the read loop on exactly
      the bytes read. */
  lemma ReadWithNothingSaved(st: WsState, data: bytes, decode: Decoder, encode: HeaderEncoder)
    requires DecoderContract(decode)
    requires st.data == [] && |data| > 0
    ensures ParseWsFrame(st, data, decode, encode) == ProcessFrames(st, data, decode, encode)
  {
    assert st.(data := []) == st;
    assert st.data + data == data;
  }

  /** The frames "AB", "CD", "EF" of the example: the last two form a run of
      continuations, and the payloads join to "ABCDEF". */
  lemma ThreeFrameMessage(fs: seq<Frame>)
    requires |fs| == 3
    requires fs[0].payload == [0x41, 0x42]
    requires fs[1].opcode == OPCODE_CONTINUE && fs[1].payload == [0x43, 0x44] && !fs[1].fin
    requires fs[2].opcode == OPCODE_CONTINUE && fs[2].payload == [0x45, 0x46] && fs[2].fin
    ensures ContinuationRun(fs[1..])
    ensures Join(Payloads(fs)) == [0x41, 0x42, 0x43, 0x44, 0x45, 0x46]
  {
    assert Payloads(fs) == [[0x41, 0x42], [0x43, 0x44], [0x45, 0x46]];
    JoinThree([0x41, 0x42], [0x43, 0x44], [0x45, 0x46]);
  }

  /** Splitting a read at any byte boundary changes nothing: feeding `a`
      then `b` gives the actions and the final state of feeding `a + b` at
      once, and an error raised while reading `a` is the one raised reading
      `a + b`. Both pieces must be non-empty, since an empty read is itself
      passed upward. */
  lemma SplitReadsAlike(st: WsState, a: bytes, b: bytes, decode: Decoder, encode: HeaderEncoder)
    requires DecoderContract(decode) && PrefixConsistent(decode)
    requires |a| > 0 && |b| > 0
    ensures var first := ParseWsFrame(st, a, decode, encode);
            var whole := ParseWsFrame(st, a + b, decode, encode);
            && (first.error.Some? ==> whole == first)
            && (first.error.None? ==>
                  var second := ParseWsFrame(first.state, b, decode, encode);
                  whole == Outcome(second.state, first.actions + second.actions, second.error))
  {
    assert st.data + (a + b) == (st.data + a) + b;
    ReadLoopSplit(st.(data := []), st.data + a, b, decode, encode);
  }

  /** Reading `x + b` in one go agrees with reading `x` and then `b`. */
  ghost predicate SplitLaw(st: WsState, x: bytes, b: bytes, decode: Decoder, encode: HeaderEncoder)
    requires DecoderContract(decode)
  {
    var first := ProcessFrames(st, x, decode, encode);
    var whole := ProcessFrames(st, x + b, decode, encode);
    && (first.error.Some? ==> whole == first)
    && (first.error.None? ==>
          var second := ParseWsFrame(first.state, b, decode, encode);
          whole == Outcome(second.state, first.actions + second.actions, second.error))
  }

  lemma {:induction false} ReadLoopSplit(st: WsState, x: bytes, b: bytes, decode: Decoder, encode: HeaderEncoder)
    requires DecoderContract(decode) && PrefixConsistent(decode)
    requires st.data == [] && |b| > 0
    ensures SplitLaw(st, x, b, decode, encode)
    decreases |x|
  {
    if |x| == 0 || st.closed || decode(x).None? {
      SplitWithoutFrame(st, x, b, decode, encode);
    } else {
      var f := decode(x).value;
      var o := ProcessFrame(st, f, encode);
      if o.error.None? {
        ReadLoopSplit(o.state, x[f.consumed..], b, decode, encode);
      }
      SplitAfterFrame(st, x, b, decode, encode);
    }
  }

  /** The base cases of `ReadLoopSplit`: `x` is empty, the protocol is
      closed, or `x` holds no whole frame and is saved for `b`. */
  lemma SplitWithoutFrame(st: WsState, x: bytes, b: bytes, decode: Decoder, encode: HeaderEncoder)
    requires DecoderContract(decode) && PrefixConsistent(decode)
    requires st.data == [] && |b| > 0
    requires |x| == 0 || st.closed || decode(x).None?
    ensures SplitLaw(st, x, b, decode, encode)
  {
    if |x| == 0 {
      assert x + b == b;
    } else if !st.closed {
      var saved := st.(data := x);
      assert ProcessFrames(st, x, decode, encode) == Outcome(saved, [], None);
      assert saved.(data := []) == st;
      var second := ParseWsFrame(saved, b, decode, encode);
      assert second == ProcessFrames(st, x + b, decode, encode);
      assert [] + second.actions == second.actions;
    }
  }

  /** The inductive step of `ReadLoopSplit`: the first frame of `x` is the
      first frame of `x + b`, and after it the two reads continue alike. */
  lemma SplitAfterFrame(st: WsState, x: bytes, b: bytes, decode: Decoder, encode: HeaderEncoder)
    requires DecoderContract(decode) && PrefixConsistent(decode)
    requires st.data == [] && |b| > 0 && |x| > 0 && !st.closed && decode(x).Some?
    requires var f := decode(x).value;
             var o := ProcessFrame(st, f, encode);
             o.error.None? ==> SplitLaw(o.state, x[f.consumed..], b, decode, encode)
    ensures SplitLaw(st, x, b, decode, encode)
  {
    var f := decode(x).value;
    assert decode(x + b) == decode(x);
    assert (x + b)[f.consumed..] == x[f.consumed..] + b;
    UnfoldReadLoop(st, x, decode, encode);
    UnfoldReadLoop(st, x + b, decode, encode);
    var o := ProcessFrame(st, f, encode);
    if o.error.None? {
      PrependFrameActions(o.actions, o.state, x[f.consumed..], b, decode, encode);
    }
  }

  /** The split law survives putting the actions of one more frame in front
      of both reads. */
  lemma PrependFrameActions(acts: seq<WsAction>, s: WsState, x: bytes, b: bytes, decode: Decoder, encode: HeaderEncoder)
    requires DecoderContract(decode)
    requires SplitLaw(s, x, b, decode, encode)
    ensures var first := ProcessFrames(s, x, decode, encode);
            var whole := ProcessFrames(s, x + b, decode, encode);
            var f1 := Outcome(first.state, acts + first.actions, first.error);
            var w1 := Outcome(whole.state, acts + whole.actions, whole.error);
            && (f1.error.Some? ==> w1 == f1)
            && (f1.error.None? ==>
                  var second := ParseWsFrame(f1.state, b, decode, encode);
                  w1 == Outcome(second.state, f1.actions + second.actions, second.error))
  {
    var first := ProcessFrames(s, x, decode, encode);
    if first.error.None? {
      var second := ParseWsFrame(first.state, b, decode, encode);
      assert acts + (first.actions + second.actions) == (acts + first.actions) + second.actions;
    }
  }

  /** One turn of the read loop when the decoder finds a frame. */
  lemma UnfoldReadLoop(st: WsState, data: bytes, decode: Decoder, encode: HeaderEncoder)
    requires DecoderContract(decode)
    requires |data| > 0 && !st.closed && decode(data).Some?
    ensures var f := decode(data).value;
            var o := ProcessFrame(st, f, encode);
            var rest := ProcessFrames(o.state, data[f.consumed..], decode, encode);
            ProcessFrames(st, data, decode, encode)
            == if o.error.Some? then o else Outcome(rest.state, o.actions + rest.actions, rest.error)
  {
  }

  /** Once the protocol is closed, no frame is processed: every later read
      is dropped without an action. */
  lemma ClosedReadsNothing(st: WsState, buf: bytes, decode: Decoder, encode: HeaderEncoder)
    requires DecoderContract(decode)
    requires Valid(st) && st.closed && |buf| > 0
    ensures ParseWsFrame(st, buf, decode, encode) == Outcome(st, [], None)
  {
  }

  /** After `close`, whatever arrives and whatever was half-received, nothing
      is delivered upward. */
  lemma {:induction false} NothingDeliveredAfterClose(st: WsState, bufs: seq<bytes>, decode: Decoder, encode: HeaderEncoder)
    requires DecoderContract(decode)
    requires Valid(st)
    requires forall i :: 0 <= i < |bufs| ==> |bufs[i]| > 0
    ensures ReadAll(Close(st), bufs, decode, encode) == Outcome(Close(st), [], None)
  {
    var c := Close(st);
    var i := 0;
    while i < |bufs|
      invariant 0 <= i <= |bufs|
      invariant ReadAll(c, bufs[..i], decode, encode) == Outcome(c, [], None)
    {
      assert bufs[..i + 1][..i] == bufs[..i];
      ReadAllStep(c, bufs[..i + 1], decode, encode);
      i := i + 1;
    }
    assert bufs[..|bufs|] == bufs;
  }

  /** Successive reads, each fed to `parse_ws_frame`, stopping at the first
      error. */
  function ReadAll(st: WsState, bufs: seq<bytes>, decode: Decoder, encode: HeaderEncoder): (r: Outcome)
    requires DecoderContract(decode)
    ensures Valid(st) ==> Valid(r.state)
    decreases |bufs|
  {
    if |bufs| == 0 then Outcome(st, [], None)
    else
      var o := ReadAll(st, bufs[..|bufs| - 1], decode, encode);
      if o.error.Some? then o
      else
        var last := ParseWsFrame(o.state, bufs[|bufs| - 1], decode, encode);
        Outcome(last.state, o.actions + last.actions, last.error)
  }

  lemma ReadAllStep(c: WsState, bufs: seq<bytes>, decode: Decoder, encode: HeaderEncoder)
    requires DecoderContract(decode)
    requires Valid(c) && c.closed && |bufs| > 0 && |bufs[|bufs| - 1]| > 0
    requires ReadAll(c, bufs[..|bufs| - 1], decode, encode) == Outcome(c, [], None)
    ensures ReadAll(c, bufs, decode, encode) == Outcome(c, [], None)
  {
    ClosedReadsNothing(c, bufs[|bufs| - 1], decode, encode);
  }

  /** A read holding exactly one whole, final, unmasked text or binary frame,
      on an open connection with nothing saved and nothing pending, delivers
      that frame's payload and leaves the state as it was. */
  lemma WholeFrameDelivered(st: WsState, op: nat, payload: bytes, decode: Decoder, encode: HeaderEncoder)
    requires DecoderContract(decode) && CodecRoundTrip(encode, decode)
    requires Valid(st) && !st.closed && st.data == [] && st.pendingOpcode == 0
    requires op == OPCODE_BINARY || op == OPCODE_TEXT
    ensures ParseWsFrame(st, encode(op, |payload|, false) + payload, decode, encode)
            == Outcome(st, [Deliver(payload)], None)
  {
    var buf := encode(op, |payload|, false) + payload;
    assert decode(buf) == Some(Frame(op, payload, |buf|, true));
    if |buf| > 0 {
      assert st.(data := []) == st;
      var o := ProcessFrame(st, Frame(op, payload, |buf|, true), encode);
      assert o == Outcome(st, [Deliver(payload)], None);
      assert buf[|buf|..] == [];
      var rest := ProcessFrames(st, [], decode, encode);
      assert rest == Outcome(st, [], None);
      assert ProcessFrames(st, buf, decode, encode) == Outcome(st, [Deliver(payload)] + [], None);
      assert st.data + buf == buf;
      assert [Deliver(payload)] + [] == [Deliver(payload)];
    } else {
      // a decoded frame consumes at least one byte, so `buf` is never empty
      assert false;
    }
  }

  /** A ping is answered by one frame that the peer decodes as a final pong
      with the identical payload; nothing is delivered upward. */
  lemma PingAnsweredWithPong(st: WsState, f: Frame, encode: HeaderEncoder, decode: Decoder)
    requires CodecRoundTrip(encode, decode)
    requires Valid(st) && !st.closed && st.pendingOpcode == 0
    requires f.opcode == OPCODE_PING && f.fin
    ensures var r := ProcessFrame(st, f, encode);
            && r.error.None? && r.state == st && |r.actions| == 1 && r.actions[0].Write?
            && decode(r.actions[0].frame) == Some(Frame(OPCODE_PONG, f.payload, |r.actions[0].frame|, true))
  {
    PongRoundTrip(f.payload, encode, decode);
  }
}
